=== FILE: README.md ===
# resumo-periodico in Dafny

A model of the deterministic core of *resumo-periodico*. It is a Telegram bot
that takes a scientific article as a PDF and sends it to a GROBID server,
which turns it into TEI/XML. A language model then answers `/resumo` (a fixed
list of topics) and free-text questions about the article.

The repository holds two versions of the bot, and both are modelled:

- **GPT version** (`src/main.py`, `src/handles/`, `src/generative/`):
  - GROBID's TEI output is converted to JSON, and the JSON file's *path* is stored as the article.
  - The model's answer is cleaned: citation markers are removed, blank-line runs are collapsed, and the ends are trimmed.
  - The summary is shown with Telegram's MarkdownV2 escaping.
- **Claude version** (`src/app.py`):
  - The TEI file's *contents* are stored as the article.
  - The answer is used as it is, and the summary is sent as plain text.
  - A GROBID exception is not caught inside the handler.

The model has nine modules:

- `Options` (options.dfy): the optional value used for the stored article and summary and for partial results.
- `Strings` (strings.dfy): Python's `sub in s` on two strings and the leftmost, non-overlapping `str.replace`.
- `Markdown` (markdown.dfy): `escape_markdown_v2` and a reading of its output as Telegram interprets backslash escapes.
- `Cleanup` (cleanup.dfy): the three clean-up steps of the GPT answer, each with Python's exact regex semantics:
  - `re.sub(r"【[^】]+】", "", …)`;
  - `re.sub(r"\n\s*\n", "\n\n", …)`, where the greedy `\s*` backtracks to the last newline of the whitespace run;
  - `str.strip()`.

  Whitespace is Python's `str.isspace` set, which is what both `\s` and `strip()` use on `str`.
- `Artifacts` (artifacts.dfy): the working directory `resources/input_<timestamp>/`, POSIX `os.path.join`, and the XML and JSON names made by `file_name.replace(".pdf", …)`.
- `Bot` (bot.dfy): what both versions share:
  - the per-user state `{article, summary}`;
  - replies with their parse mode;
  - the outcomes of the external services;
  - the access guard `username in ALLOWED_USERS`, which is a substring test on one string;
  - the routing table.
- `GptBot` (gpt_bot.dfy) and `ClaudeBot` (claude_bot.dfy): each version's handlers and its step function:
  - `Step(allowedUsers, username, session, update, env)` returns the new state, the replies in order, and the request made to the answer service, if one was made.
  - `env` carries the outside world: the clock reading, the bytes of the uploaded document, GROBID's outcome, the files GROBID leaves behind, and the answer service's outcome. The handler's own save of the upload is modelled: the files the handler sees are GROBID's files plus the upload at its PDF path (`Bot.FilesAfterUpload`).
- `Variants` (variants.dfy): the two versions compared, and a few whole conversations.

The escaper reserves eighteen characters, ``_*[]()~`>#+-=|{}.!``; the backslash is not among them.

Some behaviours surprise, but the model states them as the code has them:

- `"ana"` is admitted when `"mariana"` is listed.
- Every `.pdf` in a file name is replaced, not only the extension, and `.PDF` is left alone.
- An absolute file name escapes the working directory.
- A backslash in a summary is not escaped, so Telegram reads it as an escape of the character that follows, when that character is ASCII (code 1 to 126); otherwise, before a non-ASCII character such as `ã` or at the end of the text, the backslash is shown as written. See `Markdown.BackslashSwallowsNext` and `Markdown.BackslashExposesMarkup`. The round trip through Telegram is proved only for summaries without a backslash.

## Model

| member | source | states |
|---|---|---|
| Strings.Contains | src/main.py:44 | Python's `in` on two strings; specified by `Strings.ContainsIsSubstring` and `Strings.EmptyContains` |
| Strings.ReplaceAll | src/handles/handle_pdf.py:93 | `str.replace` for a non-empty pattern; specified by `Strings.ReplaceAbsent` and `Strings.ReplaceLeftmost` |
| Strings.ContainsIsSubstring | src/main.py:44 | `username in ALLOWED_USERS` on two strings holds exactly when the username occurs at some index of the list |
| Strings.EmptyContains | src/main.py:44 | the empty string is in every string, and a non-empty one is in no empty string |
| Strings.ReplaceAbsent | src/handles/handle_pdf.py:93 | `str.replace` leaves a string in which the pattern does not occur unchanged |
| Strings.ReplaceLeftmost | src/handles/handle_pdf.py:93 | `str.replace` copies everything before the leftmost occurrence, puts the replacement in its place and carries on right after it |
| Markdown.SpecialCharsShape | src/utils/utils.py:13 | the reserved set has eighteen distinct characters and does not contain the backslash |
| Markdown.Escape | src/utils/utils.py:13-14 | the output is longer by exactly the number of reserved characters; every reserved character in it sits right after a backslash; it never starts with a reserved character |
| Markdown.PlainCharNotSpecial | src/utils/utils.py:13 | letters, digits, blanks and non-ASCII characters are never escaped |
| Markdown.SpecialIsPrintable | src/utils/utils.py:13 | every reserved character is printable ASCII, so a backslash can escape it |
| Markdown.CountSpecialZero | src/utils/utils.py:13 | a text has no reserved character exactly when none of its characters is in the set |
| Markdown.EscapeConcat | src/utils/utils.py:14 | escaping distributes over concatenation |
| Markdown.EscapeFixedPoint | src/utils/utils.py:13-14 | a text is its own escape exactly when it has no reserved character |
| Markdown.CountSpecialEscape | src/utils/utils.py:14 | the inserted backslashes are not reserved, so escaping keeps the number of reserved characters |
| Markdown.EscapeNotIdempotent | src/utils/utils.py:13-14 | escaping twice differs from escaping once as soon as one reserved character is present |
| Markdown.UnescapeEscape | src/utils/utils.py:14 | deleting the character before each reserved character gives the input back (left inverse) |
| Markdown.EscapeInjective | src/utils/utils.py:14 | different texts escape to different texts |
| Markdown.TelegramRoundTrip | src/generative/responses.py:104-106 | a backslash-free summary sent with MarkdownV2 is shown by Telegram exactly as stored, with no markup |
| Markdown.BackslashSwallowsNext | src/utils/utils.py:13-14 | a backslash before an ordinary character is not escaped, and Telegram drops it |
| Markdown.BackslashExposesMarkup | src/utils/utils.py:13-14 | a backslash before a reserved character cancels that character's escape, so Telegram either refuses the message or reads the character as markup |
| Cleanup.FirstClose | src/generative/responses.py:68 | `[^】]+】` ends at the first `】`: the index found holds `】`, nothing before it does, and there is none exactly when `】` is absent |
| Cleanup.StripCitations | src/generative/responses.py:68 | removing markers never lengthens the text, and a text without `【` is left as it is |
| Cleanup.StripCitationsKeepsCharacters | src/generative/responses.py:68 | removal only deletes characters and never introduces one |
| Cleanup.StripLeftmost | src/generative/responses.py:68 | the leftmost marker `【body】` (body non-empty, without `】`) is removed, the text before it (in which no marker starts, though it may hold `【】` or a lone `【`) is kept, and the search resumes after its `】` |
| Cleanup.EmptyBracketsBeforeMarker | src/generative/responses.py:68 | an empty `【】` is no marker: in `【】【x】` it stays while `【x】` goes |
| Cleanup.StripMarkerAtFront | src/generative/responses.py:68 | a marker at the very front is removed and the scan resumes after its `】` |
| Cleanup.StripLeavesNoCitation | src/generative/responses.py:68 | no complete marker remains after the removal |
| Cleanup.StripCitationsFixedPoint | src/generative/responses.py:68 | a text without a complete marker is left unchanged |
| Cleanup.StripIdempotent | src/generative/responses.py:68 | removing markers a second time changes nothing |
| Cleanup.LastNewlineInRun | src/generative/responses.py:69 | the greedy `\s*\n` ends at the last newline of the whitespace run, and fails exactly when the run has no newline |
| Cleanup.CollapseBlankLines | src/generative/responses.py:69 | the result never has three newlines in a row, is never longer, is empty only for empty input, and starts with a newline exactly when the input does |
| Cleanup.CollapseCopiesPrefix | src/generative/responses.py:69 | text before the first newline is copied unchanged |
| Cleanup.CollapseRun | src/generative/responses.py:69 | a newline, whitespace, a last newline, then non-newline blanks before a non-blank becomes `"\n\n"` followed by those blanks |
| Cleanup.CollapseFixedPoint | src/generative/responses.py:69 | a text with no two newlines separated by whitespace alone is left unchanged |
| Cleanup.Strip | src/generative/responses.py:69 | the result neither starts nor ends with whitespace and is never longer |
| Cleanup.StripCutsOnlySpace | src/generative/responses.py:69 | the result is a slice of the input with only whitespace on either side of it |
| Cleanup.StripFixedPoint | src/generative/responses.py:69 | a text is not trimmed exactly when it is empty or starts and ends with non-whitespace |
| Cleanup.StripKeepsNoTriple | src/generative/responses.py:69 | trimming cannot create three newlines in a row |
| Cleanup.CleanAnswer | src/generative/responses.py:68-69 | the cleaned answer has no whitespace at its ends, no three newlines in a row, and is never longer than the raw answer |
| Cleanup.CleanAnswerFixedPoint | src/generative/responses.py:68-69 | an answer with no `【`, no blank-line gap and no edge whitespace passes the clean-up unchanged |
| Artifacts.WorkDir | src/handles/handle_pdf.py:45-46 | the working directory starts with `resources/input_` and ends with a slash |
| Artifacts.Join | src/handles/handle_pdf.py:48 | POSIX `os.path.join` of two parts; specified by `Artifacts.JoinInside` and `Artifacts.JoinAbsoluteEscapes` |
| Artifacts.XmlName | src/handles/handle_pdf.py:93 | the TEI file name; specified by `Artifacts.NamesWithoutPdf`, `Artifacts.ExtensionReplaced` and `Artifacts.EveryOccurrenceReplaced` |
| Artifacts.JsonName | src/handles/handle_pdf.py:102 | the JSON file name; specified by `Artifacts.NamesWithoutPdf` and `Artifacts.ExtensionReplaced` |
| Artifacts.PdfPath | src/handles/handle_pdf.py:48 | where the upload is saved; specified by `Artifacts.ArtifactsShareDirectory` and `Artifacts.DistinctUploadsDistinctPaths` |
| Artifacts.XmlPath | src/handles/handle_pdf.py:94 | where the TEI output is looked for; specified by `Artifacts.ArtifactsShareDirectory` |
| Artifacts.JsonPath | src/handles/handle_pdf.py:103 | where the JSON file is written; specified by `Artifacts.ArtifactsShareDirectory` |
| Artifacts.WorkDirInjective | src/handles/handle_pdf.py:46 | different timestamps give different working directories |
| Artifacts.JoinInside | src/handles/handle_pdf.py:48 | a relative name joined to the slash-terminated directory is the directory followed by the name |
| Artifacts.JoinAbsoluteEscapes | src/handles/handle_pdf.py:48 | an absolute file name replaces the working directory altogether |
| Artifacts.NamesWithoutPdf | src/handles/handle_pdf.py:93-102 | a name in which `.pdf` does not occur is its own XML and JSON name |
| Artifacts.UpperCaseExtensionKept | src/handles/handle_pdf.py:93 | the match is case-sensitive: `paper.PDF` keeps its name |
| Artifacts.NoDotNoPdf | src/handles/handle_pdf.py:93 | `.pdf` cannot occur in a name without a dot |
| Artifacts.ExtensionReplaced | src/handles/handle_pdf.py:93-103 | a name ending in its only `.pdf` gets that extension replaced by `.grobid.tei.xml` and by `.json` |
| Artifacts.EveryOccurrenceReplaced | src/handles/handle_pdf.py:93 | every `.pdf` is replaced, not only a final one |
| Artifacts.ReplaceKeepsRelative | src/handles/handle_pdf.py:93-103 | replacing `.pdf` by a text that starts with a dot keeps a relative name relative |
| Artifacts.ArtifactsShareDirectory | src/handles/handle_pdf.py:48-103 | for a relative name, the PDF, the XML and the JSON paths are the upload's working directory followed by the (renamed) file name; a name containing `/`, such as `a/b.pdf`, therefore lands in a subdirectory of it |
| Artifacts.DistinctUploadsDistinctPaths | src/handles/handle_pdf.py:45-48 | uploads with different slash-free timestamps store their PDFs at different paths |
| Bot.HasArticle | src/handles/handle_text.py:34-36 | `if not article_path` fails exactly for a missing or empty article; used by the handlers' contracts, e.g. `ClaudeBot.EmptyTeiLeavesNoArticle` |
| Bot.FilesAfterUpload | src/handles/handle_pdf.py:48-51 | the files the handler sees: the upload's bytes at its PDF path, every file GROBID left with the contents GROBID gave it (unless the upload overwrote it), and nothing else |
| Bot.Admitted | src/main.py:44 | the access test; specified by `Bot.AdmittedIffSubstring` and the lemmas after it |
| Bot.Guarded | src/main.py:39-50 | the access-control wrapper; specified by `Bot.DeniedSenderGetsOnlyDenial` and `Bot.AdmittedSenderReachesHandler` |
| Bot.Route | src/main.py:55-61 | which handler an update reaches; specified by `Bot.RoutingTable` |
| Bot.Dispatch | src/main.py:55-61 | an unrouted update is ignored, a routed one goes through the guard; specified by `Bot.DeniedSenderGetsOnlyDenial` and `Bot.AdmittedSenderReachesHandler` |
| Bot.UnquoteQuoted | src/handles/handle_text.py:19 | the question is quoted verbatim and can be read back out of the prompt |
| Bot.QuotedPromptInjective | src/handles/handle_text.py:19 | different questions give different prompts |
| Bot.AdmittedIffSubstring | src/main.py:44 | a sender is admitted exactly when the username occurs somewhere in `ALLOWED_USERS` |
| Bot.PieceOfListAdmitted | src/main.py:44 | any piece of the list is admitted, not only the names it lists |
| Bot.AnaAdmittedByMariana | src/main.py:44 | `ana` is admitted when the list is `mariana` |
| Bot.ForeignCharacterRefused | src/main.py:44 | a username with a character the list lacks is refused |
| Bot.EmptyListAdmitsNoName | src/main.py:23-44 | with an empty list only the empty username is admitted |
| Bot.DeniedSenderGetsOnlyDenial | src/main.py:44-48 | a refused sender gets exactly the one denial reply, with no state change and no service call, whatever the handler |
| Bot.AdmittedSenderReachesHandler | src/main.py:49 | an admitted sender gets exactly what the routed handler produces |
| Bot.RoutingTable | src/main.py:55-61 | the three commands, named as the library passes them on (lower-cased, without `@botname`), reach their handlers, other commands none, non-command text the question handler, and a document the upload handler exactly when it is a PDF |
| GptBot.GetPrompt | src/handles/handle_text.py:19 | the prompt carries the question verbatim between the JSON intro and the fixed outro |
| GptBot.GetPromptInjective | src/handles/handle_text.py:19 | different questions give different prompts |
| GptBot.GenerateResponse | src/generative/responses.py:32-75 | the notice comes first; a success returns the cleaned answer; a failure sends `GPT-4o mini: <e>` and returns the error text as if it were the answer |
| GptBot.GenerateSummary | src/generative/responses.py:89-107 | without an article only the "Nenhum artigo" reply and no call; otherwise the topic list is sent with the stored path, the unescaped result is stored, and the reply is the header plus the escaped summary, then the follow-up; the article is never touched |
| GptBot.SummaryReplyShowsStoredSummary | src/generative/responses.py:102-106 | un-escaping the summary reply after its header gives back exactly the stored summary |
| GptBot.HandlePdf | src/handles/handle_pdf.py:43-110 | the processing notice first, then the GROBID diagnostic, the missing-XML reply when no file (GROBID's output or the saved upload) is at the XML path, or the stored JSON path and the success reply; the article changes only on success; the summary never does |
| GptBot.HandleText | src/handles/handle_text.py:33-43 | without an article one reply and no call; otherwise the question prompt goes out with the stored path, and the replies are exactly the answer service's notice (and diagnostic, on failure) followed by the answer sent plainly; the state is never written |
| GptBot.Handle | src/main.py:55-61 | the GPT handlers by route; specified by `GptBot.AdmittedSenderHandled` |
| GptBot.Step | src/main.py:55-61 | one update through routing, guard and handler; specified by `GptBot.RefusedSenderOnlyDenied`, `GptBot.AdmittedSenderHandled` and the `ChangesOnly` lemmas |
| GptBot.RefusedSenderOnlyDenied | src/main.py:44-61 | every routed update from a refused sender yields only the denial |
| GptBot.AdmittedSenderHandled | src/main.py:49-61 | an admitted sender's `/start`, `/resumo`, `/suporte`, text and PDF reach their handlers unchanged |
| GptBot.NoAnswerCallWithoutArticle | src/generative/responses.py:89-98 | without an article no update, from anyone, calls the answer service |
| GptBot.AnswerCallNeedsAdmissionAndArticle | src/main.py:44-61 | the answer service is called only for an admitted `/resumo` or question with an article, and always on that article |
| GptBot.ArticleChangesOnlyOnUpload | src/handles/handle_pdf.py:96-106 | only an admitted, successful PDF upload whose XML exists changes the article, and it stores the JSON path |
| GptBot.SummaryChangesOnlyOnResumo | src/generative/responses.py:94-102 | only an admitted `/resumo` with an article changes the summary |
| ClaudeBot.GetPrompt | src/app.py:65 | the prompt carries the question verbatim between the XML/TEI intro and the fixed outro |
| ClaudeBot.GetPromptInjective | src/app.py:65 | different questions give different prompts |
| ClaudeBot.GenerateResponse | src/app.py:83-114 | the notice comes first; a success returns the first text block untouched; a failure sends `Claude 3.5 Haiku: <e>` and returns the error text |
| ClaudeBot.GenerateSummary | src/app.py:128-148 | without an article only the "Nenhum artigo" reply and no call; otherwise the prompt-wrapped topic list goes out with the article text, and the raw result is stored and shown after the header as plain text, then the follow-up |
| ClaudeBot.HandlePdf | src/app.py:214-270 | the processing notice first; a GROBID exception ends the handler; a missing TEI file (neither GROBID's output nor the saved upload at that path) gets the error reply; otherwise that file's contents become the article |
| ClaudeBot.HandleText | src/app.py:284-294 | without an article one reply and no call; otherwise the question prompt goes out with the article text, and the replies are exactly the answer service's notice (and diagnostic, on failure) followed by the answer as it is; the state is never written |
| ClaudeBot.Handle | src/app.py:298-304 | the Claude handlers by route; specified by `ClaudeBot.AdmittedSenderHandled` |
| ClaudeBot.Step | src/app.py:298-304 | one update through routing, guard and handler; specified by `ClaudeBot.RefusedSenderOnlyDenied`, `ClaudeBot.AdmittedSenderHandled` and the `ChangesOnly` lemmas |
| ClaudeBot.RefusedSenderOnlyDenied | src/app.py:44-50 | every routed update from a refused sender yields only the denial |
| ClaudeBot.AdmittedSenderHandled | src/app.py:298-304 | an admitted sender's updates reach the routed handlers unchanged |
| ClaudeBot.NoAnswerCallWithoutArticle | src/app.py:133-137 | without an article no update calls the answer service |
| ClaudeBot.ArticleChangesOnlyOnUpload | src/app.py:257-266 | only an admitted, successful PDF upload whose TEI file exists changes the article, and it stores that file's text |
| ClaudeBot.SummaryChangesOnlyOnResumo | src/app.py:133-145 | only an admitted `/resumo` with an article changes the summary |
| ClaudeBot.EmptyTeiLeavesNoArticle | src/app.py:263-288 | an empty TEI file is a "success" that leaves no article, so the next question gets the "send an article" reply |
| Variants.AnswersDifferOnlyByCleanup | src/generative/responses.py:66-75 | the GPT answer is the Claude-style raw answer put through the clean-up; failures return the same error text; the two texts agree exactly after a failure or when the clean-up leaves the answer as it is |
| Variants.SummaryRepliesAgreeWithoutSpecials | src/generative/responses.py:104-106 | whenever both versions store the same summary (after any failed call, and after an answer the clean-up leaves as it is) they end in the same state, and their summary reply texts agree (the parse modes always differ) exactly when the summary has no reserved character |
| Variants.SameGuard | src/app.py:44-50 | both versions refuse the same senders with the same turn |
| Variants.StartScenario | src/main.py:55 | `/start` on a new conversation gives the welcome text and no article |
| Variants.UploadScenario | src/handles/handle_pdf.py:93-110 | uploading `<base>.pdf`, where `.pdf` occurs only as the extension (`v1.2.pdf` qualifies), with GROBID's output present stores `<base>.json` in the working directory and confirms |
| Variants.PlainLineClean | src/generative/responses.py:68-69 | one line of letters, digits and inner blanks passes the clean-up untouched |
| Variants.PlainLineUnescaped | src/utils/utils.py:13-14 | such a line passes the escaper untouched |
| Variants.SummaryScenario | src/generative/responses.py:100-107 | `/resumo` with a plain answer stores it and shows it after the header, between the notice and the follow-up |
| Variants.UploadWithoutPdfExtensionFindsItself | src/handles/handle_pdf.py:93-106 | a name with no lower-case `.pdf` makes the TEI path the upload's own path: the model of the GPT version stores that path and reports success (the program's `tei_to_json` would be handed the PDF, see "## Left out"), and the model of the Claude version (src/app.py:254-266) stores the uploaded bytes |
| Variants.UploadReadsGrobidOutput | src/app.py:254-266 | when the TEI name is not the upload's own path, the Claude version stores exactly the text GROBID wrote there and the GPT version (src/handles/handle_pdf.py:93-106) its JSON path; with no GROBID output both send the missing-XML reply and keep their state |
| Variants.GrobidDownScenario | src/handles/handle_pdf.py:87-89 | with GROBID down the diagnostic is sent and the state stays as it was |
| Variants.UnauthorizedSummaryScenario | src/main.py:44-56 | `/resumo` from a username with a character the list lacks gets only the denial, and no service call |

## Left out

- Telegram transport is left out: `Application`, handler registration, `run_polling`, `get_file`, `download_to_drive` and `send_action`. Replies are an ordered output list, and a failed download is not modelled.
- GROBID, the OpenAI assistant, thread and run calls, and the Anthropic call are network services. Each is an outcome parameter (`Env.grobid`, `Env.answer`). The model does not state which text GROBID or a language model would produce.
- `tei_to_json` is foreign-library code and file I/O (xmltodict, json.dump). It is not modelled, and neither is a failure inside it. The GPT version stores the JSON path it returns.
- File reads, writes and `os.makedirs` are left out. The files present after GROBID has run are a map from path to contents, and "exists" means the path is a key.
- `datetime.now()` becomes an opaque timestamp string. Two uploads within the same second share a directory, and the model does not capture what that does to the files.
- The `None` username and an unset `ALLOWED_USERS` raise `TypeError` in Python. Both are taken to be strings.
- Updates that no handler takes are ignored without passing the guard. Framework error handling, such as the log entry for the uncaught GROBID exception in the Claude version, is not modelled.
- The asyncio event loop, concurrency between conversations, and dotenv loading are left out.
- Cleanup.StripCitations: its own contract states only length and the no-`【` case. The full removal behaviour is carried by `Cleanup.StripLeftmost`, `Cleanup.StripLeavesNoCitation` and `Cleanup.StripCitationsFixedPoint`.
- Markdown.TelegramPlainText reads only backslash escapes and treats any unescaped reserved character as markup. It does not parse Telegram's entities, so the round trip is stated only for backslash-free text.
- Markdown.TelegramRoundTrip: proved only for text without a backslash. With a backslash the shown text differs, as `Markdown.BackslashSwallowsNext` and `Markdown.BackslashExposesMarkup` state.
- GptBot.HandlePdf: when the TEI path is the upload's own path (a name without `.pdf`), `tei_to_json` receives the PDF, which is not TEI; what it then does (most likely raise) is not modelled, and the model stores the path it would have returned.
- ClaudeBot.HandlePdf: reading the TEI path as text can fail, for instance when it is the uploaded PDF itself; a failed read or decode is not modelled, and the file's contents are taken to be text.
- GptBot.GenerateSummary: any reply Telegram refuses makes `reply_text` raise: malformed MarkdownV2 (every reserved character outside an entity must be escaped, and a backslash in the summary can cancel an escape) or a text longer than 4096 characters. The handler then stops after storing the summary, and the follow-up is not sent. The model always sends the follow-up.
- ClaudeBot.GenerateSummary: a summary reply longer than 4096 characters is refused by Telegram, so `reply_text` raises after the summary is stored and the follow-up is not sent. The model always sends the follow-up.
- GptBot.HandleText: Telegram refuses an empty message or one longer than 4096 characters, so an answer the clean-up empties (one that is only a citation marker, say) makes the final `reply_text` raise. The model still lists that empty reply.
- ClaudeBot.HandleText: an empty answer, or one longer than 4096 characters, makes the final `reply_text` raise, as in the GPT version; the model still lists the empty reply.
- Bot.Route: the command name is taken after the library's own parsing, which lower-cases it and strips a `@botname` suffix; that parsing is not modelled, so `/Resumo` is represented by `Command("resumo")`.
- Strings.ReplaceAll models `str.replace` only for a non-empty pattern, which is the only kind the code uses (`.pdf`).

=== FILE: artifacts.dfy ===
/**
 * Where an upload's files live: a working directory named after the upload's
 * timestamp, the PDF under its original name, and the GROBID and JSON outputs
 * whose names come from `str.replace(".pdf", …)` on that name.
 */
module Artifacts {
  import opened Strings

  const InputRoot: string := "resources/input_"
  const PdfExt: string := ".pdf"
  const TeiExt: string := ".grobid.tei.xml"
  const JsonExt: string := ".json"

  /** `f"resources/input_{date_now}/"`; the timestamp is an opaque input. */
  function WorkDir(timestamp: string): (d: string)
    ensures |d| > 0 && d[|d| - 1] == '/'
    ensures |InputRoot| < |d| && d[..|InputRoot|] == InputRoot
  {
    InputRoot + timestamp + "/"
  }

  /** Different timestamps give different working directories. */
  lemma WorkDirInjective(a: string, b: string)
    requires WorkDir(a) == WorkDir(b)
    ensures a == b
  {
    assert a == WorkDir(a)[|InputRoot|..|WorkDir(a)| - 1];
    assert b == WorkDir(b)[|InputRoot|..|WorkDir(b)| - 1];
  }

  predicate IsAbsolute(name: string) {
    |name| > 0 && name[0] == '/'
  }

  /** POSIX `os.path.join(dir, name)`: an absolute name replaces the directory. */
  function Join(dir: string, name: string): string
  {
    if IsAbsolute(name) then name
    else if |dir| == 0 || dir[|dir| - 1] == '/' then dir + name
    else dir + "/" + name
  }

  /** A relative name lands inside a slash-terminated directory, unchanged. */
  lemma JoinInside(dir: string, name: string)
    requires |dir| > 0 && dir[|dir| - 1] == '/'
    requires !IsAbsolute(name)
    ensures |Join(dir, name)| == |dir| + |name|
    ensures Join(dir, name)[..|dir|] == dir && Join(dir, name)[|dir|..] == name
  {
  }

  /** An absolute file name escapes the working directory altogether. */
  lemma JoinAbsoluteEscapes(dir: string, name: string)
    requires IsAbsolute(name)
    ensures Join(dir, name) == name
  {
  }

  /** `file_name.replace(".pdf", ".grobid.tei.xml")`. */
  function XmlName(fileName: string): string
  {
    ReplaceAll(fileName, PdfExt, TeiExt)
  }

  /** `file_name.replace(".pdf", ".json")`. */
  function JsonName(fileName: string): string
  {
    ReplaceAll(fileName, PdfExt, JsonExt)
  }

  function PdfPath(timestamp: string, fileName: string): string
  {
    Join(WorkDir(timestamp), fileName)
  }

  function XmlPath(timestamp: string, fileName: string): string
  {
    Join(WorkDir(timestamp), XmlName(fileName))
  }

  function JsonPath(timestamp: string, fileName: string): string
  {
    Join(WorkDir(timestamp), JsonName(fileName))
  }

  /**
   * A name in which ".pdf" does not occur is its own XML and JSON name; the
   * match is case-sensitive, so "A.PDF" is such a name.
   */
  lemma NamesWithoutPdf(fileName: string)
    requires forall i: nat :: !OccursAt(fileName, PdfExt, i)
    ensures XmlName(fileName) == fileName
    ensures JsonName(fileName) == fileName
  {
    ReplaceAbsent(fileName, PdfExt, TeiExt);
    ReplaceAbsent(fileName, PdfExt, JsonExt);
  }

  lemma UpperCaseExtensionKept()
    ensures XmlName("paper.PDF") == "paper.PDF"
  {
    forall i: nat ensures !OccursAt("paper.PDF", PdfExt, i) {
      if i + 4 <= 9 {
        assert "paper.PDF"[i..i + 4][1] != 'p' || "paper.PDF"[i..i + 4][0] != '.';
      }
    }
    NamesWithoutPdf("paper.PDF");
  }

  /** ".pdf" starts with a dot, so it cannot occur in a name without one. */
  lemma NoDotNoPdf(base: string)
    requires '.' !in base
    ensures forall i: nat :: !OccursAt(base, PdfExt, i)
  {
    forall i: nat | i + 4 <= |base| ensures !OccursAt(base, PdfExt, i) {
      assert base[i..i + 4][0] == base[i];
    }
  }

  /** ".pdf" cannot start within the last three characters before a ".pdf". */
  lemma NoOccurrenceBeforeExtension(base: string)
    requires forall i: nat :: !OccursAt(base, PdfExt, i)
    ensures forall i: nat :: i < |base| ==> !OccursAt(base + PdfExt, PdfExt, i)
  {
    var s := base + PdfExt;
    forall i: nat | i < |base| ensures !OccursAt(s, PdfExt, i) {
      if i + 4 <= |base| {
        assert s[i..i + 4] == base[i..i + 4];
        assert !OccursAt(base, PdfExt, i);
      } else {
        var k := |base| - i;
        assert s[i + k] == '.';
        assert PdfExt[k] != '.';
      }
    }
  }

  /**
   * The usual case: a name ending in its only ".pdf" gets that extension
   * replaced, so the XML and the JSON outputs share the PDF's stem.
   */
  lemma ExtensionReplaced(base: string)
    requires forall i: nat :: !OccursAt(base, PdfExt, i)
    ensures XmlName(base + PdfExt) == base + TeiExt
    ensures JsonName(base + PdfExt) == base + JsonExt
  {
    var s := base + PdfExt;
    NoOccurrenceBeforeExtension(base);
    assert s[|base|..|base| + 4] == PdfExt;
    ReplaceLeftmost(s, PdfExt, TeiExt, |base|);
    ReplaceLeftmost(s, PdfExt, JsonExt, |base|);
    assert s[..|base|] == base;
    assert s[|base| + 4..] == [];
  }

  /** Not suffix-only: every ".pdf" is replaced, wherever it stands. */
  lemma EveryOccurrenceReplaced(a: string, b: string)
    requires forall i: nat :: !OccursAt(a, PdfExt, i)
    ensures XmlName(a + PdfExt + b) == a + TeiExt + XmlName(b)
  {
    var s := a + PdfExt + b;
    NoOccurrenceBeforeExtension(a);
    forall i: nat | i < |a| ensures !OccursAt(s, PdfExt, i) {
      assert !OccursAt(a + PdfExt, PdfExt, i);
      if i + 4 <= |a| + 4 {
        assert s[i..i + 4] == (a + PdfExt)[i..i + 4];
      }
    }
    assert s[|a|..|a| + 4] == PdfExt;
    ReplaceLeftmost(s, PdfExt, TeiExt, |a|);
    assert s[..|a|] == a;
    assert s[|a| + 4..] == b;
  }

  /**
   * For a relative name, the PDF, the XML and the JSON paths are the
   * upload's working directory followed by the (renamed) name; a name with a
   * `/` in it lands in a subdirectory, as `os.path.join` has it.
   */
  lemma ArtifactsShareDirectory(timestamp: string, fileName: string)
    requires !IsAbsolute(fileName)
    ensures PdfPath(timestamp, fileName) == WorkDir(timestamp) + fileName
    ensures !IsAbsolute(XmlName(fileName)) && XmlPath(timestamp, fileName) == WorkDir(timestamp) + XmlName(fileName)
    ensures !IsAbsolute(JsonName(fileName)) && JsonPath(timestamp, fileName) == WorkDir(timestamp) + JsonName(fileName)
  {
    ReplaceKeepsRelative(fileName, TeiExt);
    ReplaceKeepsRelative(fileName, JsonExt);
  }

  /** Both replacements start with '.', so a relative name stays relative. */
  lemma ReplaceKeepsRelative(fileName: string, rep: string)
    requires !IsAbsolute(fileName)
    requires |rep| > 0 && rep[0] == '.'
    ensures !IsAbsolute(ReplaceAll(fileName, PdfExt, rep))
  {
  }

  /**
   * Uploads with different timestamps (which, like `%Y%m%d_%H%M%S`, hold no
   * slash) store their PDFs at different paths, whatever the file names.
   */
  lemma DistinctUploadsDistinctPaths(t1: string, n1: string, t2: string, n2: string)
    requires '/' !in t1 && '/' !in t2 && t1 != t2
    requires !IsAbsolute(n1) && !IsAbsolute(n2)
    ensures PdfPath(t1, n1) != PdfPath(t2, n2)
  {
    var p1 := PdfPath(t1, n1);
    var p2 := PdfPath(t2, n2);
    var k := |InputRoot|;
    assert p1 == InputRoot + t1 + "/" + n1;
    assert p2 == InputRoot + t2 + "/" + n2;
    if |t1| < |t2| {
      assert p1[k + |t1|] == '/';
      assert p2[k + |t1|] == t2[|t1|];
      assert t2[|t1|] in t2;
    } else if |t2| < |t1| {
      assert p2[k + |t2|] == '/';
      assert p1[k + |t2|] == t1[|t2|];
      assert t1[|t2|] in t1;
    } else {
      var j :| 0 <= j < |t1| && t1[j] != t2[j];
      assert p1[k + j] == t1[j];
      assert p2[k + j] == t2[j];
    }
  }
}

=== FILE: bot.dfy ===
/**
 * What both versions of the bot share: the per-user conversation state, the
 * replies a turn sends, the outcomes of the external services, the access
 * guard that wraps every handler, and the table that routes an incoming
 * Telegram update to a handler.
 */
module Bot {
  import opened Options
  import opened Strings
  import opened Artifacts

  /** `context.user_data`: the stored article (a path or the XML text) and the last summary. */
  datatype Session = Session(article: Option<string>, summary: Option<string>)

  /** A user's first update finds an empty `user_data`. */
  const NewSession: Session := Session(None, None)

  /** Python's `if not article`: a missing article and an empty one are both "no article". */
  predicate HasArticle(s: Session) {
    s.article.Some? && |s.article.value| > 0
  }

  /** `parse_mode` of a reply: none, or "MarkdownV2". */
  datatype ParseMode = Plain | MarkdownV2

  datatype Reply = Reply(text: string, mode: ParseMode)

  function Say(text: string): Reply {
    Reply(text, Plain)
  }

  /** What the answer service is asked: an instruction and the stored article. */
  datatype AnswerRequest = AnswerRequest(prompt: string, article: string)

  /**
   * The effect of one update: the new state, the replies in the order they
   * are sent, and the request made to the answer service, if one was made.
   */
  datatype Turn = Turn(session: Session, replies: seq<Reply>, request: Option<AnswerRequest>)

  /** What the answer helper hands back to its caller, and the replies it sent itself. */
  datatype Response = Response(text: string, replies: seq<Reply>)

  /** Whether `GrobidClient.process` returned or raised. */
  datatype GrobidOutcome = Processed | GrobidFailed(error: string)

  /** Whether the answer service produced text or raised. */
  datatype AnswerOutcome = Answered(text: string) | AnswerFailed(error: string)

  /**
   * Everything a turn learns from outside: the clock reading that names the
   * working directory, the uploaded document as downloaded, GROBID's
   * outcome, the files GROBID leaves behind (path to contents; a path exists
   * when it is a key), and the answer service's outcome.
   */
  datatype Env = Env(timestamp: string, upload: string, grobid: GrobidOutcome, disk: map<string, string>, answer: AnswerOutcome)

  /**
   * The files present when an upload handler checks for GROBID's output: the
   * document it saved itself at `PdfPath` before calling GROBID, and
   * whatever GROBID left, with the contents GROBID left in it.
   */
  function FilesAfterUpload(env: Env, fileName: string): (files: map<string, string>)
    ensures PdfPath(env.timestamp, fileName) in files && files[PdfPath(env.timestamp, fileName)] == env.upload
    ensures forall p :: p in env.disk ==> p in files
    ensures forall p :: p in files ==> p in env.disk || p == PdfPath(env.timestamp, fileName)
    ensures forall p :: p in env.disk && p != PdfPath(env.timestamp, fileName) ==> files[p] == env.disk[p]
  {
    env.disk[PdfPath(env.timestamp, fileName) := env.upload]
  }

  // ---------------------------------------------------------------------------
  // Fixed reply texts common to both versions
  // ---------------------------------------------------------------------------

  const DeniedText: string := "Acesso negado. Você não tem permissão para usar este bot."
  const StartText: string := "Envie seu artigo científico, aguarde a análise e faça suas perguntas.\n\nDigite /suporte para obter ajuda."
  const NoArticleForSummaryText: string := "Nenhum artigo foi enviado ainda. Envie um PDF para análise."
  const SummaryHeader: string := "Resumo:\n\n"
  const FollowUpText: string := "Se preferir, pergunte algo sobre o artigo."
  const GrobidProcessingText: string := "⏳ GROBID: processando... (≤1 min)"
  const XmlMissingText: string := "Erro: O arquivo XML não foi gerado. Verifique o servidor do GROBID."
  const ProcessedText: string := "Artigo processado! Envie /resumo para gerar um resumo ou faça perguntas."
  const NoArticleForQuestionText: string := "Envie um artigo para análise."

  // ---------------------------------------------------------------------------
  // Question prompts
  // ---------------------------------------------------------------------------

  /** `f"{intro}'{question}'{outro}"`: the question is quoted verbatim, unescaped. */
  function QuotedPrompt(intro: string, question: string, outro: string): string {
    intro + "'" + question + "'" + outro
  }

  /** Reads the question back out of a prompt built with the same intro and outro. */
  function UnquotePrompt(intro: string, prompt: string, outro: string): Option<string> {
    var n := |intro| + 1;
    var m := |outro| + 1;
    if |prompt| >= n + m && prompt[..n] == intro + "'" && prompt[|prompt| - m..] == "'" + outro
    then Some(prompt[n..|prompt| - m])
    else None
  }

  /** The question can be recovered from its prompt. */
  lemma UnquoteQuoted(intro: string, question: string, outro: string)
    ensures UnquotePrompt(intro, QuotedPrompt(intro, question, outro), outro) == Some(question)
  {
    var p := QuotedPrompt(intro, question, outro);
    var n := |intro| + 1;
    var m := |outro| + 1;
    assert p == (intro + "'") + question + ("'" + outro);
    assert p[..n] == intro + "'";
    assert p[|p| - m..] == "'" + outro;
    assert p[n..|p| - m] == question;
  }

  /** So different questions give different prompts. */
  lemma QuotedPromptInjective(intro: string, q1: string, q2: string, outro: string)
    requires QuotedPrompt(intro, q1, outro) == QuotedPrompt(intro, q2, outro)
    ensures q1 == q2
  {
    UnquoteQuoted(intro, q1, outro);
    UnquoteQuoted(intro, q2, outro);
  }

  // ---------------------------------------------------------------------------
  // Access guard
  // ---------------------------------------------------------------------------

  /** `username in ALLOWED_USERS`, where `ALLOWED_USERS` is one string: a substring test. */
  predicate Admitted(allowedUsers: string, username: string) {
    Contains(allowedUsers, username)
  }

  /** Admission is exactly "the username occurs somewhere in the list". */
  lemma AdmittedIffSubstring(allowedUsers: string, username: string)
    ensures Admitted(allowedUsers, username) <==> exists i: nat :: OccursAt(allowedUsers, username, i)
  {
    ContainsIsSubstring(allowedUsers, username);
  }

  /** Any piece of the list is admitted, not only the names it lists: "ana" gets in when "mariana" is listed. */
  lemma PieceOfListAdmitted(before: string, username: string, after: string)
    ensures Admitted(before + username + after, username)
  {
    var s := before + username + after;
    assert s[|before|..|before| + |username|] == username;
    assert OccursAt(s, username, |before|);
    AdmittedIffSubstring(s, username);
  }

  lemma AnaAdmittedByMariana()
    ensures Admitted("mariana", "ana")
  {
    PieceOfListAdmitted("mari", "ana", "");
    assert "mari" + "ana" + "" == "mariana";
  }

  /** A username holding a character the list lacks is refused. */
  lemma ForeignCharacterRefused(allowedUsers: string, username: string, c: char)
    requires c in username && c !in allowedUsers
    ensures !Admitted(allowedUsers, username)
  {
    var j :| 0 <= j < |username| && username[j] == c;
    forall i: nat ensures !OccursAt(allowedUsers, username, i) {
      if i + |username| <= |allowedUsers| {
        assert allowedUsers[i..i + |username|][j] == allowedUsers[i + j];
        assert allowedUsers[i + j] in allowedUsers;
      }
    }
    AdmittedIffSubstring(allowedUsers, username);
  }

  /** With an empty list every non-empty username is refused (and the empty one admitted). */
  lemma EmptyListAdmitsNoName(username: string)
    ensures Admitted("", username) <==> |username| == 0
  {
  }

  /** `access_control(func)`: refuse with one reply and skip the handler, or hand over to it. */
  function Guarded(allowedUsers: string, username: string, s: Session, handled: Turn): Turn
  {
    if Admitted(allowedUsers, username) then handled
    else Turn(s, [Say(DeniedText)], None)
  }

  // ---------------------------------------------------------------------------
  // Routing
  // ---------------------------------------------------------------------------

  /**
   * A Telegram update as the handlers see it: a `/name` command, a text that
   * is not a command, a document with its MIME type, or anything else. The
   * command name is the one the library hands over after its own parsing:
   * lower-cased and with any `@botname` suffix already removed, so
   * `/Resumo@bot` arrives here as `Command("resumo")`.
   */
  datatype Update = Command(name: string) | Text(text: string) | Document(mimeType: string, fileName: string) | OtherUpdate

  datatype Handler = Start | Summarize | Support | UploadPdf(fileName: string) | Ask(question: string)

  const PdfMimeType: string := "application/pdf"

  /** The `add_handler` table: which handler, if any, an update reaches. */
  function Route(u: Update): Option<Handler> {
    match u
    case Command(name) =>
      if name == "start" then Some(Start)
      else if name == "resumo" then Some(Summarize)
      else if name == "suporte" then Some(Support)
      else None
    case Text(text) => Some(Ask(text))
    case Document(mimeType, fileName) => if mimeType == PdfMimeType then Some(UploadPdf(fileName)) else None
    case OtherUpdate => None
  }

  /**
   * One update for one user: an update no handler takes is ignored (the guard
   * never sees it); every routed update passes through the guard first.
   */
  function Dispatch(allowedUsers: string, username: string, s: Session, u: Update, handle: Handler -> Turn): Turn {
    match Route(u)
    case None => Turn(s, [], None)
    case Some(h) => Guarded(allowedUsers, username, s, handle(h))
  }

  /**
   * A refused sender gets exactly the denial, whatever the handler would have
   * done: no state change and no call to the answer service.
   */
  lemma DeniedSenderGetsOnlyDenial(allowedUsers: string, username: string, s: Session, u: Update, handle: Handler -> Turn)
    requires Route(u).Some? && !Admitted(allowedUsers, username)
    ensures Dispatch(allowedUsers, username, s, u, handle) == Turn(s, [Say(DeniedText)], None)
  {
  }

  /** An admitted sender gets exactly what the routed handler produces; the guard adds nothing. */
  lemma AdmittedSenderReachesHandler(allowedUsers: string, username: string, s: Session, u: Update, handle: Handler -> Turn)
    requires Route(u).Some? && Admitted(allowedUsers, username)
    ensures Dispatch(allowedUsers, username, s, u, handle) == handle(Route(u).value)
  {
  }

  /** The routing table: the three commands, PDF documents, and non-command text. */
  lemma RoutingTable(u: Update)
    ensures Route(Command("start")) == Some(Start)
    ensures Route(Command("resumo")) == Some(Summarize)
    ensures Route(Command("suporte")) == Some(Support)
    ensures u.Command? && u.name !in {"start", "resumo", "suporte"} ==> Route(u) == None
    ensures u.Text? ==> Route(u) == Some(Ask(u.text))
    ensures u.Document? ==> (Route(u).Some? <==> u.mimeType == PdfMimeType)
    ensures u.Document? && u.mimeType == PdfMimeType ==> Route(u) == Some(UploadPdf(u.fileName))
  {
  }
}

=== FILE: claude_bot.dfy ===
/**
 * The single-file Claude 3.5 Haiku version (`app.py`): the stored article is
 * the TEI XML text itself, the answer is used exactly as returned, the
 * summary reply is not escaped, and a GROBID failure is not caught.
 */
module ClaudeBot {
  import opened Options
  import opened Bot
  import opened Artifacts

  const AnswerNotice: string := "⏳ Claude 3.5 Haiku: gerando resposta... (≤1 min)"
  const FailurePrefix: string := "Claude 3.5 Haiku: "

  const QuestionIntro: string := "Pergunta baseada no XML (artigo científico estruturado em XML/TEI) em anexo:\n\n"
  const QuestionOutro: string := "\n\nResponda de forma objetiva e em português (PT-BR)."

  /** The topic list of `/resumo`, which is itself wrapped by `GetPrompt` before it is sent. */
  const SummaryQuestion: string := "Pergunta baseada no XML (artigo científico estruturado em XML/TEI) em anexo:\n\nResponda aos seguintes tópicos: Título, Data de publicação, Autores, Resumo em um tweet, Panorama e Principais achados. A resposta deve estar em português (PT-BR)."

  const SupportText: string := "Ferramenta experimental para gerar resumos de artigos científicos diretamente de arquivos PDF\\. Foi desenvolvida para auxiliar no processo de curadoria da newsletter Periódica\\.\n\nO modelo de linguagem Claude 3\\.5 Haiku é utilizado em conjunto com a biblioteca de aprendizado de máquina GROBID, responsável pela extração de informações acadêmicas dos artigos\\.\n\nComandos:\n/resumo: gerar resumo do artigo em PDF\n/suporte: obter ajuda\n/start: iniciar uma nova conversa\n\nReporte um erro:\nabra uma issue no [GitHub](https://github\\.com/periodicanews/resumo\\-periodico/issues) ou envie um e\\-mail para support@claromes\\.com\\.\n\nCréditos:\nauthor: Clarissa Mendes \\<support@claromes\\.com\\>\nversion: 0\\.0\\.2\\-alpha\nlicense:\nsource code: [github\\.com/periodicanews/resumo\\-periodico](https://github\\.com/periodicanews/resumo\\-periodico)\n"

  /** `get_prompt`: the question quoted verbatim between the XML/TEI intro and a fixed outro. */
  function GetPrompt(question: string): (p: string)
    ensures UnquotePrompt(QuestionIntro, p, QuestionOutro) == Some(question)
  {
    UnquoteQuoted(QuestionIntro, question, QuestionOutro);
    QuotedPrompt(QuestionIntro, question, QuestionOutro)
  }

  lemma GetPromptInjective(q1: string, q2: string)
    requires GetPrompt(q1) == GetPrompt(q2)
    ensures q1 == q2
  {
    QuotedPromptInjective(QuestionIntro, q1, q2, QuestionOutro);
  }

  /**
   * `generate_response`: announce the call, then return the first content
   * block's text untouched, or report the error naming the model and return
   * the error text as if it were the answer.
   */
  function GenerateResponse(answer: AnswerOutcome): (r: Response)
    ensures |r.replies| >= 1 && r.replies[0] == Say(AnswerNotice)
    ensures answer.Answered? ==> r == Response(answer.text, [Say(AnswerNotice)])
    ensures answer.AnswerFailed? ==>
      r == Response(answer.error, [Say(AnswerNotice), Say(FailurePrefix + answer.error)])
  {
    match answer
    case Answered(text) => Response(text, [Say(AnswerNotice)])
    case AnswerFailed(e) => Response(e, [Say(AnswerNotice), Say(FailurePrefix + e)])
  }

  /**
   * `generate_summary`: without an article, one reply and no call; otherwise
   * the prompt-wrapped topic list goes out with the article text, the raw
   * result is stored and shown as it is, with no parse mode, followed by the
   * invitation to ask. The article is never touched.
   */
  function GenerateSummary(s: Session, answer: AnswerOutcome): (t: Turn)
    ensures t.session.article == s.article
    ensures !HasArticle(s) ==> t == Turn(s, [Say(NoArticleForSummaryText)], None)
    ensures HasArticle(s) ==> t.request == Some(AnswerRequest(GetPrompt(SummaryQuestion), s.article.value))
    ensures HasArticle(s) ==> t.session.summary == Some(GenerateResponse(answer).text)
    ensures HasArticle(s) ==>
      t.replies == GenerateResponse(answer).replies + [Say(SummaryHeader + t.session.summary.value), Say(FollowUpText)]
  {
    if !HasArticle(s) then Turn(s, [Say(NoArticleForSummaryText)], None)
    else
      var response := GenerateResponse(answer);
      Turn(s.(summary := Some(response.text)),
           response.replies + [Say(SummaryHeader + response.text), Say(FollowUpText)],
           Some(AnswerRequest(GetPrompt(SummaryQuestion), s.article.value)))
  }

  /**
   * `handle_pdf`: the processing notice comes first. A GROBID exception is not
   * caught here, so it ends the handler with nothing more sent; a missing TEI
   * file gets the "XML não foi gerado" reply; otherwise the TEI file's
   * contents, not its path, become the article. The summary is never touched.
   */
  function HandlePdf(s: Session, fileName: string, env: Env): (t: Turn)
    ensures t.session.summary == s.summary && t.request == None
    ensures |t.replies| >= 1 && t.replies[0] == Say(GrobidProcessingText)
    ensures env.grobid.GrobidFailed? ==> t == Turn(s, [Say(GrobidProcessingText)], None)
    ensures env.grobid.Processed? && XmlPath(env.timestamp, fileName) !in FilesAfterUpload(env, fileName) ==>
      t == Turn(s, [Say(GrobidProcessingText), Say(XmlMissingText)], None)
    ensures env.grobid.Processed? && XmlPath(env.timestamp, fileName) in FilesAfterUpload(env, fileName) ==>
      t.session.article == Some(FilesAfterUpload(env, fileName)[XmlPath(env.timestamp, fileName)])
      && t.replies == [Say(GrobidProcessingText), Say(ProcessedText)]
  {
    var notice := Say(GrobidProcessingText);
    var teiPath := XmlPath(env.timestamp, fileName);
    var files := FilesAfterUpload(env, fileName);
    match env.grobid
    case GrobidFailed(_) => Turn(s, [notice], None)
    case Processed =>
      if teiPath !in files then Turn(s, [notice, Say(XmlMissingText)], None)
      else Turn(s.(article := Some(files[teiPath])), [notice, Say(ProcessedText)], None)
  }

  /**
   * `handle_text`: without an article, one reply and no call; otherwise the
   * prompt built from the message goes out with the article text and the
   * answer is sent as it is. The state is never written.
   */
  function HandleText(s: Session, message: string, answer: AnswerOutcome): (t: Turn)
    ensures t.session == s
    ensures !HasArticle(s) ==> t.replies == [Say(NoArticleForQuestionText)] && t.request == None
    ensures HasArticle(s) ==> t.request == Some(AnswerRequest(GetPrompt(message), s.article.value))
    ensures HasArticle(s) ==> t.replies == GenerateResponse(answer).replies + [Say(GenerateResponse(answer).text)]
  {
    if !HasArticle(s) then Turn(s, [Say(NoArticleForQuestionText)], None)
    else
      var response := GenerateResponse(answer);
      Turn(s, response.replies + [Say(response.text)], Some(AnswerRequest(GetPrompt(message), s.article.value)))
  }

  function Handle(h: Handler, s: Session, env: Env): Turn {
    match h
    case Start => Turn(s, [Say(StartText)], None)
    case Support => Turn(s, [Reply(SupportText, MarkdownV2)], None)
    case Summarize => GenerateSummary(s, env.answer)
    case UploadPdf(fileName) => HandlePdf(s, fileName, env)
    case Ask(question) => HandleText(s, question, env.answer)
  }

  function Step(allowedUsers: string, username: string, s: Session, u: Update, env: Env): Turn {
    Dispatch(allowedUsers, username, s, u, h => Handle(h, s, env))
  }

  // ---------------------------------------------------------------------------
  // Properties of a whole turn
  // ---------------------------------------------------------------------------

  lemma RefusedSenderOnlyDenied(allowedUsers: string, username: string, s: Session, u: Update, env: Env)
    requires Route(u).Some? && !Admitted(allowedUsers, username)
    ensures Step(allowedUsers, username, s, u, env) == Turn(s, [Say(DeniedText)], None)
  {
    DeniedSenderGetsOnlyDenial(allowedUsers, username, s, u, h => Handle(h, s, env));
  }

  lemma AdmittedSenderHandled(allowedUsers: string, username: string, s: Session, u: Update, env: Env)
    requires Admitted(allowedUsers, username)
    ensures u == Command("resumo") ==> Step(allowedUsers, username, s, u, env) == GenerateSummary(s, env.answer)
    ensures u.Text? ==> Step(allowedUsers, username, s, u, env) == HandleText(s, u.text, env.answer)
    ensures u.Document? && u.mimeType == PdfMimeType ==>
      Step(allowedUsers, username, s, u, env) == HandlePdf(s, u.fileName, env)
    ensures u == Command("start") ==> Step(allowedUsers, username, s, u, env) == Turn(s, [Say(StartText)], None)
    ensures u == Command("suporte") ==>
      Step(allowedUsers, username, s, u, env) == Turn(s, [Reply(SupportText, MarkdownV2)], None)
  {
  }

  lemma NoAnswerCallWithoutArticle(allowedUsers: string, username: string, s: Session, u: Update, env: Env)
    requires !HasArticle(s)
    ensures Step(allowedUsers, username, s, u, env).request == None
  {
  }

  /** Only an admitted, successful PDF upload changes the article, and it stores the TEI text. */
  lemma ArticleChangesOnlyOnUpload(allowedUsers: string, username: string, s: Session, u: Update, env: Env)
    ensures var t := Step(allowedUsers, username, s, u, env);
      t.session.article != s.article ==>
        && Admitted(allowedUsers, username)
        && u.Document? && u.mimeType == PdfMimeType
        && env.grobid == Processed && XmlPath(env.timestamp, u.fileName) in FilesAfterUpload(env, u.fileName)
        && t.session.article == Some(FilesAfterUpload(env, u.fileName)[XmlPath(env.timestamp, u.fileName)])
  {
  }

  lemma SummaryChangesOnlyOnResumo(allowedUsers: string, username: string, s: Session, u: Update, env: Env)
    ensures var t := Step(allowedUsers, username, s, u, env);
      t.session.summary != s.summary ==>
        Admitted(allowedUsers, username) && u == Command("resumo") && HasArticle(s)
  {
  }

  /**
   * An empty TEI file still "succeeds", but leaves the bot without an article:
   * the next question gets the "send an article" reply.
   */
  lemma EmptyTeiLeavesNoArticle(s: Session, fileName: string, env: Env)
    requires env.grobid == Processed
    requires XmlPath(env.timestamp, fileName) in FilesAfterUpload(env, fileName) && FilesAfterUpload(env, fileName)[XmlPath(env.timestamp, fileName)] == ""
    ensures !HasArticle(HandlePdf(s, fileName, env).session)
    ensures HandleText(HandlePdf(s, fileName, env).session, "?", env.answer).request == None
  {
  }
}

=== FILE: cleanup.dfy ===
/**
 * The clean-up applied to the assistant's answer before it is returned:
 * remove the `【…】` citation markers the file-search tool inserts, turn every
 * newline/whitespace/newline run into one blank line, and trim the ends.
 * Each step follows the leftmost, greedy matching of the regular expression
 * it is written with.
 */
module Cleanup {
  import opened Options

  const Open: char := '\U{3010}'   // 【
  const Close: char := '\U{3011}'  // 】

  /** Python's `str.isspace`, which is also what `\s` and `str.strip()` use on `str`. */
  predicate IsSpace(c: char) {
    || c == ' ' || c == '\t' || c == '\n' || c == '\r' || c == '\U{000B}' || c == '\U{000C}'
    || ('\U{001C}' <= c <= '\U{001F}') || c == '\U{0085}' || c == '\U{00A0}' || c == '\U{1680}'
    || ('\U{2000}' <= c <= '\U{200A}') || c == '\U{2028}' || c == '\U{2029}' || c == '\U{202F}'
    || c == '\U{205F}' || c == '\U{3000}'
  }

  predicate AllSpace(s: string) {
    forall i :: 0 <= i < |s| ==> IsSpace(s[i])
  }

  // ---------------------------------------------------------------------------
  // Step 1: re.sub(r"【[^】]+】", "", text)
  // ---------------------------------------------------------------------------

  /** Index of the first closing bracket of `t`, if any. */
  function FirstClose(t: string): (r: Option<nat>)
    ensures r.Some? ==> r.value < |t| && t[r.value] == Close
    ensures r.Some? ==> forall j :: 0 <= j < r.value ==> t[j] != Close
    ensures r.None? <==> Close !in t
  {
    if |t| == 0 then None
    else if t[0] == Close then Some(0)
    else match FirstClose(t[1..])
      case Some(k) => assert t[1..][k] == t[k + 1]; Some(k + 1)
      case None => assert t == [t[0]] + t[1..]; None
  }

  /**
   * A citation marker starts at `i`: an opening bracket, at least one
   * character that is not a closing bracket, then the first closing bracket.
   */
  predicate CitationAt(s: string, i: nat) {
    && i < |s|
    && s[i] == Open
    && var f := FirstClose(s[i + 1..]);
       f.Some? && f.value >= 1
  }

  /**
   * Removes markers from left to right; after one is removed the search
   * resumes right after its closing bracket. The result is never longer, and
   * text without an opening bracket is left as it is.
   */
  function StripCitations(s: string): (r: string)
    ensures |r| <= |s|
    ensures Open !in s ==> r == s
    decreases |s|
  {
    if |s| == 0 then []
    else if CitationAt(s, 0) then
      StripCitations(s[FirstClose(s[1..]).value + 2..])
    else
      assert Open !in s ==> Open !in s[1..] && s == [s[0]] + s[1..];
      [s[0]] + StripCitations(s[1..])
  }

  /** Stripping only ever removes characters. */
  lemma {:induction false} StripCitationsKeepsCharacters(s: string)
    ensures forall c :: c in StripCitations(s) ==> c in s
    decreases |s|
  {
    if |s| == 0 {
    } else if CitationAt(s, 0) {
      var rest := s[FirstClose(s[1..]).value + 2..];
      StripCitationsKeepsCharacters(rest);
      assert forall c :: c in rest ==> c in s;
    } else {
      StripCitationsKeepsCharacters(s[1..]);
      assert forall c :: c in s[1..] ==> c in s;
    }
  }

  /** A marker cannot start after a character that is not an opening bracket. */
  lemma CitationAtCons(c: char, t: string, i: nat)
    requires 0 < i <= |t|
    ensures CitationAt([c] + t, i) <==> CitationAt(t, i - 1)
  {
    assert ([c] + t)[i + 1..] == t[i..];
  }

  predicate NoCitation(s: string) {
    forall i: nat :: i < |s| ==> !CitationAt(s, i)
  }

  lemma NoCitationCons(c: char, t: string)
    requires NoCitation(t)
    requires !CitationAt([c] + t, 0)
    ensures NoCitation([c] + t)
  {
    forall i: nat | 0 < i <= |t| ensures !CitationAt([c] + t, i) {
      CitationAtCons(c, t, i);
    }
  }

  /** After stripping, no marker is left, including none formed by the removal itself. */
  lemma {:induction false} StripLeavesNoCitation(s: string)
    ensures NoCitation(StripCitations(s))
    decreases |s|
  {
    if |s| == 0 {
    } else if CitationAt(s, 0) {
      StripLeavesNoCitation(s[FirstClose(s[1..]).value + 2..]);
    } else {
      var t := StripCitations(s[1..]);
      StripLeavesNoCitation(s[1..]);
      if s[0] == Open {
        // The opening bracket stays; either no closing bracket follows it at
        // all, or one follows immediately.
        var f := FirstClose(s[1..]);
        if f.None? {
          StripCitationsKeepsCharacters(s[1..]);
          assert Close !in t;
          assert FirstClose(t) == None;
        } else {
          assert f.value == 0;
          assert s[1..] == [Close] + s[2..];
          assert t == [Close] + StripCitations(s[2..]);
          assert FirstClose(t) == Some(0);
        }
        assert ([s[0]] + t)[1..] == t;
      }
      NoCitationCons(s[0], t);
    }
  }

  /** Text without markers is a fixed point of the step. */
  lemma {:induction false} StripCitationsFixedPoint(s: string)
    requires NoCitation(s)
    ensures StripCitations(s) == s
    decreases |s|
  {
    if |s| > 0 {
      assert !CitationAt(s, 0);
      forall i: nat ensures !CitationAt(s[1..], i) {
        assert !CitationAt(s, i + 1);
        if i < |s[1..]| {
          assert s[1..][i + 1..] == s[i + 2..];
        }
      }
      StripCitationsFixedPoint(s[1..]);
    }
  }

  /** So the step is idempotent. */
  lemma StripIdempotent(s: string)
    ensures StripCitations(StripCitations(s)) == StripCitations(s)
  {
    StripLeavesNoCitation(s);
    StripCitationsFixedPoint(StripCitations(s));
  }

  /**
   * The leftmost marker is removed whole: text before it (in which no marker
   * starts, though it may hold an empty `【】` or a lone `【`) is kept, and
   * stripping continues after its closing bracket.
   */
  lemma {:induction false} StripLeftmost(p: string, body: string, q: string)
    requires forall i: nat :: i < |p| ==> !CitationAt(p + [Open] + body + [Close] + q, i)
    requires |body| >= 1 && Close !in body
    ensures StripCitations(p + [Open] + body + [Close] + q) == p + StripCitations(q)
    decreases |p|
  {
    var s := p + [Open] + body + [Close] + q;
    if |p| == 0 {
      assert s == [Open] + (body + [Close] + q);
      StripMarkerAtFront(body, q);
    } else {
      var t := s[1..];
      assert t == p[1..] + [Open] + body + [Close] + q;
      assert StripCitations(s) == [p[0]] + StripCitations(t) by {
        assert s[0] == p[0];
        assert !CitationAt(s, 0);
      }
      assert StripCitations(t) == p[1..] + StripCitations(q) by {
        forall i: nat | i < |p[1..]| ensures !CitationAt(t, i) {
          CitationShift(s, i);
        }
        StripLeftmost(p[1..], body, q);
      }
      calc {
        StripCitations(s);
        [p[0]] + (p[1..] + StripCitations(q));
        ([p[0]] + p[1..]) + StripCitations(q);
        { assert [p[0]] + p[1..] == p; }
        p + StripCitations(q);
      }
    }
  }

  /** Dropping the first character shifts every marker start by one. */
  lemma CitationShift(s: string, i: nat)
    requires |s| > 0
    ensures CitationAt(s[1..], i) == CitationAt(s, i + 1)
  {
    if i + 1 < |s| {
      assert s[1..][i + 1..] == s[i + 2..];
    }
  }

  /** No marker can start in text without an opening bracket. */
  lemma NoOpenNoCitation(p: string, r: string)
    requires Open !in p
    ensures forall i: nat :: i < |p| ==> !CitationAt(p + r, i)
  {
    forall i: nat | i < |p| ensures !CitationAt(p + r, i) {
      assert (p + r)[i] == p[i];
    }
  }

  /** For example, an empty `【】` ahead of a marker stays while the marker goes. */
  lemma EmptyBracketsBeforeMarker()
    ensures StripCitations([Open, Close, Open, 'x', Close]) == [Open, Close]
  {
    var s := [Open, Close] + [Open] + ['x'] + [Close] + [];
    assert s == [Open, Close, Open, 'x', Close];
    assert !CitationAt(s, 0) by {
      assert FirstClose(s[1..]) == Some(0) by { FirstCloseIs(s[1..], 0); }
    }
    StripLeftmost([Open, Close], ['x'], []);
  }

  /** A marker at the very front is dropped whole. */
  lemma StripMarkerAtFront(body: string, q: string)
    requires |body| >= 1 && Close !in body
    ensures StripCitations([Open] + (body + [Close] + q)) == StripCitations(q)
  {
    var s := [Open] + (body + [Close] + q);
    var t := body + [Close] + q;
    assert s[1..] == t;
    assert FirstClose(t) == Some(|body|) by {
      assert t[|body|] == Close;
      forall j | 0 <= j < |body| ensures t[j] != Close {
        assert t[j] == body[j];
        assert body[j] in body;
      }
      FirstCloseIs(t, |body|);
    }
    assert FirstClose(s[1..]) == Some(|body|);
    StripAtCitation(s, |body|);
    assert s[|body| + 2..] == q;
  }

  /** At a marker, stripping resumes after its closing bracket. */
  lemma StripAtCitation(s: string, k: nat)
    requires |s| > 0 && s[0] == Open
    requires FirstClose(s[1..]) == Some(k) && k >= 1
    ensures StripCitations(s) == StripCitations(s[k + 2..])
  {
    calc {
      StripCitations(s);
      { assert CitationAt(s, 0); }
      StripCitations(s[FirstClose(s[1..]).value + 2..]);
    }
  }

  /** The first closing bracket is determined by where it stands. */
  lemma FirstCloseIs(t: string, k: nat)
    requires k < |t| && t[k] == Close
    requires forall j :: 0 <= j < k ==> t[j] != Close
    ensures FirstClose(t) == Some(k)
  {
    var r := FirstClose(t);
    assert r.Some?;
    assert r.value <= k;
    assert r.value >= k;
  }

  // ---------------------------------------------------------------------------
  // Step 2: re.sub(r"\n\s*\n", "\n\n", text)
  // ---------------------------------------------------------------------------

  /** Length of the whitespace run at the front of `t`. */
  function SpaceRun(t: string): (n: nat)
    ensures n <= |t|
    ensures forall i :: 0 <= i < n ==> IsSpace(t[i])
    ensures n < |t| ==> !IsSpace(t[n])
  {
    if |t| == 0 || !IsSpace(t[0]) then 0
    else
      var n := SpaceRun(t[1..]) + 1;
      assert forall i :: 1 <= i < n ==> t[i] == t[1..][i - 1];
      n
  }

  /** The run is determined by where whitespace stops. */
  lemma SpaceRunIs(t: string, n: nat)
    requires n <= |t|
    requires forall i :: 0 <= i < n ==> IsSpace(t[i])
    requires n < |t| ==> !IsSpace(t[n])
    ensures SpaceRun(t) == n
  {
    var k := SpaceRun(t);
    assert k <= n;
    assert n <= k;
  }

  /**
   * Where `\s*\n` ends when matched against `t`: greedy `\s*` swallows the
   * whole run and gives back characters until a newline follows, so the match
   * ends at the last newline of the run.
   */
  function LastNewlineInRun(t: string): (r: Option<nat>)
    ensures r.None? <==> forall k :: 0 <= k < SpaceRun(t) ==> t[k] != '\n'
    ensures r.Some? ==> r.value < SpaceRun(t) && t[r.value] == '\n'
    ensures r.Some? ==> forall k :: r.value < k < SpaceRun(t) ==> t[k] != '\n'
  {
    if |t| == 0 || !IsSpace(t[0]) then None
    else
      assert SpaceRun(t) == SpaceRun(t[1..]) + 1;
      assert forall k :: 1 <= k < SpaceRun(t) ==> t[k] == t[1..][k - 1];
      match LastNewlineInRun(t[1..])
      case Some(m) => Some(m + 1)
      case None => if t[0] == '\n' then Some(0) else None
  }

  /** A newline starts a match: some newline follows it with only whitespace between. */
  predicate BlankGapAt(s: string, i: nat) {
    i < |s| && s[i] == '\n' && LastNewlineInRun(s[i + 1..]).Some?
  }

  /** Three newlines in a row start at `i`. */
  predicate TripleAt(s: string, i: nat) {
    i + 2 < |s| && s[i] == '\n' && s[i + 1] == '\n' && s[i + 2] == '\n'
  }

  predicate NoTripleNewline(s: string) {
    forall i: nat :: i < |s| ==> !TripleAt(s, i)
  }

  /**
   * Every newline/whitespace/newline run, taken leftmost and as long as it can
   * be, becomes exactly two newlines. The result never holds three newlines in
   * a row, starts with a newline exactly when the input does, and is no longer.
   */
  function CollapseBlankLines(s: string): (r: string)
    ensures |r| <= |s|
    ensures |r| == 0 <==> |s| == 0
    ensures |r| > 0 ==> (r[0] == '\n' <==> s[0] == '\n')
    ensures NoTripleNewline(r)
    decreases |s|
  {
    if |s| == 0 then []
    else if s[0] == '\n' && LastNewlineInRun(s[1..]).Some? then
      var m := LastNewlineInRun(s[1..]).value;
      var t := s[1..];
      assert m + 1 < |t| ==> t[m + 1] != '\n' by {
        if m + 1 < |t| && m + 1 < SpaceRun(t) {
        } else if m + 1 < |t| {
          assert !IsSpace(t[SpaceRun(t)]);
        }
      }
      assert s[m + 2..] == t[m + 1..];
      var rest := CollapseBlankLines(s[m + 2..]);
      var r := "\n\n" + rest;
      assert NoTripleNewline(r) by {
        forall i: nat ensures !TripleAt(r, i) {
          if i >= 2 && i + 2 < |r| {
            assert r[i] == rest[i - 2] && r[i + 1] == rest[i - 1] && r[i + 2] == rest[i];
            assert i - 2 < |rest| && !TripleAt(rest, i - 2);
          }
        }
      }
      r
    else
      var rest := CollapseBlankLines(s[1..]);
      assert s[0] == '\n' && |s| > 1 ==> s[1] != '\n' by {
        if s[0] == '\n' && |s| > 1 && IsSpace(s[1..][0]) {
          assert SpaceRun(s[1..]) > 0;
        }
      }
      var r := [s[0]] + rest;
      assert NoTripleNewline(r) by {
        forall i: nat ensures !TripleAt(r, i) {
          if i >= 1 && i + 2 < |r| {
            assert r[i] == rest[i - 1] && r[i + 1] == rest[i] && r[i + 2] == rest[i + 1];
            assert i - 1 < |rest| && !TripleAt(rest, i - 1);
          }
        }
      }
      r
  }

  /** Text in which no two newlines are separated by whitespace alone is left unchanged. */
  lemma {:induction false} CollapseFixedPoint(s: string)
    requires forall i: nat :: !BlankGapAt(s, i)
    ensures CollapseBlankLines(s) == s
    decreases |s|
  {
    if |s| > 0 {
      assert !BlankGapAt(s, 0);
      forall i: nat ensures !BlankGapAt(s[1..], i) {
        assert !BlankGapAt(s, i + 1);
        if i < |s[1..]| {
          assert s[1..][i + 1..] == s[i + 2..];
        }
      }
      CollapseFixedPoint(s[1..]);
    }
  }

  /** Characters other than newline at the front are copied. */
  lemma {:induction false} CollapseCopiesPrefix(v: string, q: string)
    requires '\n' !in v
    ensures CollapseBlankLines(v + q) == v + CollapseBlankLines(q)
    decreases |v|
  {
    if |v| > 0 {
      var s := v + q;
      assert s[1..] == v[1..] + q;
      assert CollapseBlankLines(s) == [v[0]] + CollapseBlankLines(v[1..] + q) by {
        assert s[0] == v[0] && v[0] in v;
        CollapseCopiesFirst(s);
      }
      assert CollapseBlankLines(v[1..] + q) == v[1..] + CollapseBlankLines(q) by {
        assert forall c :: c in v[1..] ==> c in v;
        CollapseCopiesPrefix(v[1..], q);
      }
      calc {
        CollapseBlankLines(s);
        [v[0]] + (v[1..] + CollapseBlankLines(q));
        ([v[0]] + v[1..]) + CollapseBlankLines(q);
        { assert [v[0]] + v[1..] == v; }
        v + CollapseBlankLines(q);
      }
    } else {
      assert v + q == q;
    }
  }

  /**
   * One maximal run: a newline, any whitespace, the run's last newline and the
   * newline-free whitespace after it. The part up to that last newline becomes
   * exactly two newlines; the trailing whitespace is kept.
   */
  lemma CollapseRun(w: string, v: string, q: string)
    requires AllSpace(w) && AllSpace(v) && '\n' !in v
    requires |q| == 0 || !IsSpace(q[0])
    ensures CollapseBlankLines("\n" + w + "\n" + v + q) == "\n\n" + v + CollapseBlankLines(q)
  {
    calc {
      CollapseBlankLines("\n" + w + "\n" + v + q);
      { CollapseRunHead(w, v, q); }
      "\n\n" + CollapseBlankLines(v + q);
      { CollapseCopiesPrefix(v, q); }
      "\n\n" + (v + CollapseBlankLines(q));
      "\n\n" + v + CollapseBlankLines(q);
    }
  }

  /** The run up to its last newline becomes two newlines. */
  lemma CollapseRunHead(w: string, v: string, q: string)
    requires AllSpace(w) && AllSpace(v) && '\n' !in v
    requires |q| == 0 || !IsSpace(q[0])
    ensures CollapseBlankLines("\n" + w + "\n" + v + q) == "\n\n" + CollapseBlankLines(v + q)
  {
    var s := "\n" + w + "\n" + v + q;
    RunSlices(w, v, q);
    LastNewlineOfRun(w, v, q);
    CollapseAtMatch(s, |w|);
  }

  lemma RunSlices(w: string, v: string, q: string)
    ensures ("\n" + w + "\n" + v + q)[1..] == w + "\n" + v + q
    ensures ("\n" + w + "\n" + v + q)[|w| + 2..] == v + q
  {
    var pre := "\n" + w + "\n";
    assert "\n" + w + "\n" + v + q == pre + (v + q);
    assert pre[1..] == w + "\n";
    assert (pre + (v + q))[1..] == pre[1..] + (v + q);
  }

  /** At a newline that starts a match, the match becomes two newlines. */
  lemma CollapseAtMatch(s: string, m: nat)
    requires |s| > 0 && s[0] == '\n'
    requires LastNewlineInRun(s[1..]) == Some(m)
    ensures CollapseBlankLines(s) == "\n\n" + CollapseBlankLines(s[m + 2..])
  {
    calc {
      CollapseBlankLines(s);
      { assert |s| != 0 && s[0] == '\n' && LastNewlineInRun(s[1..]).Some?; }
      "\n\n" + CollapseBlankLines(s[LastNewlineInRun(s[1..]).value + 2..]);
      "\n\n" + CollapseBlankLines(s[m + 2..]);
    }
  }

  /** A character that starts no match is copied. */
  lemma CollapseCopiesFirst(s: string)
    requires |s| > 0 && s[0] != '\n'
    ensures CollapseBlankLines(s) == [s[0]] + CollapseBlankLines(s[1..])
  {
    calc {
      CollapseBlankLines(s);
      { assert |s| != 0; }
      [s[0]] + CollapseBlankLines(s[1..]);
    }
  }

  /** Where each character of `w + "\n" + v + q` comes from. */
  lemma RunIndex(w: string, v: string, q: string, i: nat)
    requires i < |w| + 1 + |v| + |q|
    ensures var t := w + "\n" + v + q;
      && (i < |w| ==> t[i] == w[i])
      && (i == |w| ==> t[i] == '\n')
      && (|w| < i < |w| + 1 + |v| ==> t[i] == v[i - |w| - 1])
      && (|w| + 1 + |v| <= i ==> t[i] == q[i - |w| - 1 - |v|])
  {
  }

  /** In `w + "\n" + v + q`, the whitespace run covers `w`, the newline and `v`. */
  lemma SpaceRunOfRun(w: string, v: string, q: string)
    requires AllSpace(w) && AllSpace(v)
    requires |q| == 0 || !IsSpace(q[0])
    ensures SpaceRun(w + "\n" + v + q) == |w| + 1 + |v|
  {
    var t := w + "\n" + v + q;
    var n := |w| + 1 + |v|;
    forall i | 0 <= i < n ensures IsSpace(t[i]) {
      RunIndex(w, v, q, i);
    }
    if n < |t| {
      RunIndex(w, v, q, n);
    }
    SpaceRunIs(t, n);
  }

  /** In `w + "\n" + v + q`, no newline follows the one after `w` before `q`. */
  lemma NoNewlineInTail(w: string, v: string, q: string)
    requires '\n' !in v
    ensures forall k :: |w| < k < |w| + 1 + |v| ==> (w + "\n" + v + q)[k] != '\n'
  {
    forall k | |w| < k < |w| + 1 + |v| ensures (w + "\n" + v + q)[k] != '\n' {
      RunIndex(w, v, q, k);
      assert v[k - |w| - 1] in v;
    }
  }

  /** In `w + "\n" + v + q`, the run's last newline is the one after `w`. */
  lemma LastNewlineOfRun(w: string, v: string, q: string)
    requires AllSpace(w) && AllSpace(v) && '\n' !in v
    requires |q| == 0 || !IsSpace(q[0])
    ensures LastNewlineInRun(w + "\n" + v + q) == Some(|w|)
  {
    var t := w + "\n" + v + q;
    RunIndex(w, v, q, |w|);
    NoNewlineInTail(w, v, q);
    SpaceRunOfRun(w, v, q);
    LastNewlineIs(t, |w|);
  }

  /** The run's last newline is determined by where newlines stop within it. */
  lemma LastNewlineIs(t: string, m: nat)
    requires m < SpaceRun(t) && t[m] == '\n'
    requires forall k :: m < k < SpaceRun(t) ==> t[k] != '\n'
    ensures LastNewlineInRun(t) == Some(m)
  {
  }

  // ---------------------------------------------------------------------------
  // Step 3: str.strip()
  // ---------------------------------------------------------------------------

  /** Length of the whitespace run at the end of `t`. */
  function TrailingSpaceRun(t: string): (n: nat)
    ensures n <= |t|
    ensures forall i :: |t| - n <= i < |t| ==> IsSpace(t[i])
    ensures n < |t| ==> !IsSpace(t[|t| - n - 1])
  {
    if |t| == 0 || !IsSpace(t[|t| - 1]) then 0
    else
      var n := TrailingSpaceRun(t[..|t| - 1]) + 1;
      assert forall i :: |t| - n <= i < |t| - 1 ==> t[i] == t[..|t| - 1][i];
      n
  }

  /**
   * `str.strip()`: the leading and the trailing whitespace run are cut, so
   * the result neither starts nor ends with whitespace.
   */
  function Strip(s: string): (r: string)
    ensures |r| <= |s|
    ensures |r| > 0 ==> !IsSpace(r[0]) && !IsSpace(r[|r| - 1])
  {
    var lead := SpaceRun(s);
    if lead == |s| then []
    else
      var trail := TrailingSpaceRun(s);
      assert !IsSpace(s[lead]);
      s[lead..|s| - trail]
  }

  /** Only whitespace was cut: the result is a slice with whitespace alone on either side. */
  lemma StripCutsOnlySpace(s: string)
    ensures var r := Strip(s);
      exists a :: 0 <= a <= |s| - |r| && r == s[a..a + |r|] && AllSpace(s[..a]) && AllSpace(s[a + |r|..])
  {
    var r := Strip(s);
    var lead := SpaceRun(s);
    StripCutsRuns(s);
    if lead == |s| {
      assert AllSpace(s[..lead]) by {
        forall i | 0 <= i < lead ensures IsSpace(s[..lead][i]) { assert s[..lead][i] == s[i]; }
      }
      assert s[lead..lead] == [] && s[lead..] == [];
    } else {
      assert r == s[lead..lead + |r|];
      assert AllSpace(s[..lead]) by {
        forall i | 0 <= i < lead ensures IsSpace(s[..lead][i]) { assert s[..lead][i] == s[i]; }
      }
      assert AllSpace(s[lead + |r|..]) by {
        var suffix := s[lead + |r|..];
        forall i | 0 <= i < |suffix| ensures IsSpace(suffix[i]) { assert suffix[i] == s[lead + |r| + i]; }
      }
    }
  }

  /** Text that neither starts nor ends with whitespace, and only such text, is not trimmed. */
  lemma StripFixedPoint(s: string)
    ensures Strip(s) == s <==> (|s| == 0 || (!IsSpace(s[0]) && !IsSpace(s[|s| - 1])))
  {
    if |s| > 0 && !IsSpace(s[0]) && !IsSpace(s[|s| - 1]) {
      assert SpaceRun(s) == 0;
      assert TrailingSpaceRun(s) == 0;
      assert s[0..|s|] == s;
    }
  }

  /** A slice of text without three newlines in a row has none either. */
  lemma NoTripleSlice(s: string, a: nat, b: nat)
    requires a <= b <= |s|
    requires NoTripleNewline(s)
    ensures NoTripleNewline(s[a..b])
  {
    var t := s[a..b];
    forall i: nat ensures !TripleAt(t, i) {
      if i + 2 < |t| {
        assert !TripleAt(s, a + i);
        assert t[i] == s[a + i] && t[i + 1] == s[a + i + 1] && t[i + 2] == s[a + i + 2];
      }
    }
  }

  /** Trimming cuts the leading and the trailing whitespace run. */
  lemma StripCutsRuns(s: string)
    ensures SpaceRun(s) == |s| ==> Strip(s) == []
    ensures SpaceRun(s) < |s| ==>
      SpaceRun(s) < |s| - TrailingSpaceRun(s) && Strip(s) == s[SpaceRun(s)..|s| - TrailingSpaceRun(s)]
  {
    var lead, trail := SpaceRun(s), TrailingSpaceRun(s);
    if lead < |s| {
      LeadBeforeTrail(s);
      StripBody(s, lead, trail);
    }
  }

  /** A text that is not all whitespace has its last non-blank after its first. */
  lemma LeadBeforeTrail(s: string)
    requires SpaceRun(s) < |s|
    ensures SpaceRun(s) < |s| - TrailingSpaceRun(s)
  {
    assert !IsSpace(s[SpaceRun(s)]);
  }

  /** Past the first non-blank, `str.strip()` keeps the slice between the two runs. */
  lemma StripBody(s: string, lead: nat, trail: nat)
    requires lead == SpaceRun(s) && trail == TrailingSpaceRun(s) && lead < |s| - trail
    ensures Strip(s) == s[lead..|s| - trail]
  {
  }

  /** Trimming cannot create three newlines in a row. */
  lemma StripKeepsNoTriple(s: string)
    requires NoTripleNewline(s)
    ensures NoTripleNewline(Strip(s))
  {
    StripCutsRuns(s);
    if SpaceRun(s) < |s| {
      NoTripleSlice(s, SpaceRun(s), |s| - TrailingSpaceRun(s));
    }
  }

  /**
   * An answer with no opening bracket, no two newlines separated by
   * whitespace alone, and no whitespace at its ends comes out of the
   * clean-up unchanged.
   */
  lemma CleanAnswerFixedPoint(s: string)
    requires Open !in s
    requires forall i: nat :: !BlankGapAt(s, i)
    requires |s| == 0 || (!IsSpace(s[0]) && !IsSpace(s[|s| - 1]))
    ensures CleanAnswer(s) == s
  {
    CollapseFixedPoint(s);
    StripFixedPoint(s);
  }

  /**
   * The whole clean-up of `generate_response`: no whitespace at either end,
   * never three newlines in a row, and no citation marker survives the first
   * step.
   */
  function CleanAnswer(value: string): (r: string)
    ensures |r| > 0 ==> !IsSpace(r[0]) && !IsSpace(r[|r| - 1])
    ensures NoTripleNewline(r)
    ensures |r| <= |value|
  {
    var stripped := StripCitations(value);
    var collapsed := CollapseBlankLines(stripped);
    StripKeepsNoTriple(collapsed);
    Strip(collapsed)
  }
}

=== FILE: gpt_bot.dfy ===
/**
 * The modular GPT-4o mini version (`main.py`, `handles/`, `generative/`):
 * the stored article is the path of the JSON converted from GROBID's TEI, the
 * answer is cleaned up before use, and the summary reply is MarkdownV2-escaped.
 */
module GptBot {
  import opened Options
  import opened Bot
  import opened Markdown
  import opened Cleanup
  import opened Artifacts

  const AnswerNotice: string := "⏳ GPT-4o mini: gerando resposta... (≤1 min)"
  const FailurePrefix: string := "GPT-4o mini: "
  const GrobidFailurePrefix: string := "Verifique o servidor do GROBID.\nErro: "

  /** The fixed topic list sent, as it is, by `/resumo`. */
  const SummaryQuestion: string := "Pergunta baseada no artigo em anexo, estruturado em XML:\n\nResponda aos seguintes tópicos: no bloco <teiHeader>: \"Título\" (bloco <titleStmt>), \"Data de publicação\", \"Autores\" e \"Publisher\"; no bloco <body>: \"Resumo em um tweet\", \"Panorama\" e \"Principais achados\"; no bloco listBibl, considerar cada bloco biblStruct como 1 referência: \"Total estimado de referências\". A resposta deve estar em português (PT-BR), porém, ao referenciar trechos de textos, mantenha o idioma original. Não indicar o bloco, somente o tópico, na resposta e em plain text."

  const QuestionIntro: string := "Pergunta baseada no artigo em anexo, estruturado em JSON:\n\n"
  const QuestionOutro: string := "\n\nResponda de forma objetiva, em português (PT-BR) e em plain text, porém, ao referenciar trechos de textos, mantenha o idioma original."

  const SupportText: string := "Ferramenta experimental para gerar resumos de artigos científicos diretamente de arquivos PDF\\. Foi desenvolvida para auxiliar no processo de curadoria da newsletter Periódica\\.\n\nO modelo de linguagem GPT\\-4o mini é utilizado em conjunto com a biblioteca de aprendizado de máquina GROBID, responsável pela extração de informações acadêmicas dos artigos\\.\n\nComandos:\n/start: iniciar uma nova conversa\n/resumo: gerar resumo do artigo em PDF\n/suporte: obter ajuda\n\nReporte um erro:\nabra uma issue no [GitHub](https://github\\.com/claromes/resumo\\-periodico/issues) ou envie um e\\-mail para support@claromes\\.com\\.\n\nCréditos:\nauthor: Clarissa Mendes <\\support@claromes\\.com\\>\nversion: 0\\.1\\.0\\-alpha\nlicense: [GPL\\-3\\.0](https://raw\\.githubusercontent\\.com/claromes/resumo\\-periodico/refs/heads/main/LICENSE)\nsource code: [github\\.com/claromes/resumo\\-periodico](https://github\\.com/claromes/resumo\\-periodico)\n"

  /** `get_prompt`: the user's question, quoted verbatim between a fixed intro and outro. */
  function GetPrompt(question: string): (p: string)
    ensures UnquotePrompt(QuestionIntro, p, QuestionOutro) == Some(question)
  {
    UnquoteQuoted(QuestionIntro, question, QuestionOutro);
    QuotedPrompt(QuestionIntro, question, QuestionOutro)
  }

  lemma GetPromptInjective(q1: string, q2: string)
    requires GetPrompt(q1) == GetPrompt(q2)
    ensures q1 == q2
  {
    QuotedPromptInjective(QuestionIntro, q1, q2, QuestionOutro);
  }

  /**
   * `generate_response`: announce the call, then either return the cleaned
   * answer (no whitespace at the ends, no three newlines in a row) or report
   * the error naming the model and return the error text as if it were the
   * answer.
   */
  function GenerateResponse(answer: AnswerOutcome): (r: Response)
    ensures |r.replies| >= 1 && r.replies[0] == Say(AnswerNotice)
    ensures answer.Answered? ==> |r.replies| == 1 && r.text == CleanAnswer(answer.text)
    ensures answer.Answered? && |r.text| > 0 ==> !IsSpace(r.text[0]) && !IsSpace(r.text[|r.text| - 1])
    ensures answer.Answered? ==> NoTripleNewline(r.text)
    ensures answer.AnswerFailed? ==> r.text == answer.error
    ensures answer.AnswerFailed? ==> r.replies == [Say(AnswerNotice), Say(FailurePrefix + answer.error)]
  {
    match answer
    case Answered(value) => Response(CleanAnswer(value), [Say(AnswerNotice)])
    case AnswerFailed(e) => Response(e, [Say(AnswerNotice), Say(FailurePrefix + e)])
  }

  /**
   * `generate_summary`: without an article, one reply and nothing else;
   * otherwise the topic list goes to the answer service, the raw result is
   * stored, and the reply shows it escaped, followed by the invitation to ask.
   * The article is never touched.
   */
  function GenerateSummary(s: Session, answer: AnswerOutcome): (t: Turn)
    ensures t.session.article == s.article
    ensures !HasArticle(s) ==> t == Turn(s, [Say(NoArticleForSummaryText)], None)
    ensures HasArticle(s) ==> t.request == Some(AnswerRequest(SummaryQuestion, s.article.value))
    ensures HasArticle(s) ==> t.session.summary == Some(GenerateResponse(answer).text)
    ensures HasArticle(s) ==>
      t.replies == GenerateResponse(answer).replies
                   + [Reply(SummaryHeader + Escape(t.session.summary.value), MarkdownV2), Say(FollowUpText)]
  {
    if !HasArticle(s) then Turn(s, [Say(NoArticleForSummaryText)], None)
    else
      var response := GenerateResponse(answer);
      Turn(s.(summary := Some(response.text)),
           response.replies + [Reply(SummaryHeader + Escape(response.text), MarkdownV2), Say(FollowUpText)],
           Some(AnswerRequest(SummaryQuestion, s.article.value)))
  }

  /** The escaped summary reply gives the stored summary back once the escapes are removed. */
  lemma SummaryReplyShowsStoredSummary(s: Session, answer: AnswerOutcome)
    requires HasArticle(s)
    ensures var t := GenerateSummary(s, answer);
      var shown := t.replies[|t.replies| - 2].text;
      shown[..|SummaryHeader|] == SummaryHeader
      && Unescape(shown[|SummaryHeader|..]) == t.session.summary.value
  {
    var t := GenerateSummary(s, answer);
    var shown := t.replies[|t.replies| - 2].text;
    var summary := t.session.summary.value;
    assert shown == SummaryHeader + Escape(summary);
    assert shown[|SummaryHeader|..] == Escape(summary);
    UnescapeEscape(summary);
  }

  /**
   * `handle_pdf`: the processing notice always comes first. If GROBID raises,
   * a diagnostic follows; if no file (GROBID's output or the saved upload
   * itself) is where the TEI name says, the
   * "XML não foi gerado" reply follows; only otherwise is the JSON path
   * stored, with the success message. The summary is never touched and the
   * answer service never called.
   */
  function HandlePdf(s: Session, fileName: string, env: Env): (t: Turn)
    ensures t.session.summary == s.summary && t.request == None
    ensures |t.replies| == 2 && t.replies[0] == Say(GrobidProcessingText)
    ensures env.grobid.GrobidFailed? ==>
      t.session == s && t.replies[1] == Say(GrobidFailurePrefix + env.grobid.error)
    ensures env.grobid.Processed? && XmlPath(env.timestamp, fileName) !in FilesAfterUpload(env, fileName) ==>
      t.session == s && t.replies[1] == Say(XmlMissingText)
    ensures env.grobid.Processed? && XmlPath(env.timestamp, fileName) in FilesAfterUpload(env, fileName) ==>
      t.session.article == Some(JsonPath(env.timestamp, fileName)) && t.replies[1] == Say(ProcessedText)
  {
    var notice := Say(GrobidProcessingText);
    var files := FilesAfterUpload(env, fileName);
    match env.grobid
    case GrobidFailed(e) => Turn(s, [notice, Say(GrobidFailurePrefix + e)], None)
    case Processed =>
      if XmlPath(env.timestamp, fileName) !in files then Turn(s, [notice, Say(XmlMissingText)], None)
      else Turn(s.(article := Some(JsonPath(env.timestamp, fileName))), [notice, Say(ProcessedText)], None)
  }

  /**
   * `handle_text`: without an article, one reply and no call; otherwise the
   * prompt built from the message goes to the answer service with the stored
   * path, and the answer is sent as it is, with no escaping and no parse mode.
   * The state is never written.
   */
  function HandleText(s: Session, message: string, answer: AnswerOutcome): (t: Turn)
    ensures t.session == s
    ensures !HasArticle(s) ==> t.replies == [Say(NoArticleForQuestionText)] && t.request == None
    ensures HasArticle(s) ==> t.request == Some(AnswerRequest(GetPrompt(message), s.article.value))
    ensures HasArticle(s) ==> t.replies == GenerateResponse(answer).replies + [Say(GenerateResponse(answer).text)]
  {
    if !HasArticle(s) then Turn(s, [Say(NoArticleForQuestionText)], None)
    else
      var response := GenerateResponse(answer);
      Turn(s, response.replies + [Say(response.text)], Some(AnswerRequest(GetPrompt(message), s.article.value)))
  }

  /** The handler each route leads to; `start` and `suporte` only reply. */
  function Handle(h: Handler, s: Session, env: Env): Turn {
    match h
    case Start => Turn(s, [Say(StartText)], None)
    case Support => Turn(s, [Reply(SupportText, MarkdownV2)], None)
    case Summarize => GenerateSummary(s, env.answer)
    case UploadPdf(fileName) => HandlePdf(s, fileName, env)
    case Ask(question) => HandleText(s, question, env.answer)
  }

  /** One update from `username`, with `ALLOWED_USERS` equal to `allowedUsers`. */
  function Step(allowedUsers: string, username: string, s: Session, u: Update, env: Env): Turn {
    Dispatch(allowedUsers, username, s, u, h => Handle(h, s, env))
  }

  // ---------------------------------------------------------------------------
  // Properties of a whole turn
  // ---------------------------------------------------------------------------

  /** Every routed update is guarded: a refused sender gets only the denial. */
  lemma RefusedSenderOnlyDenied(allowedUsers: string, username: string, s: Session, u: Update, env: Env)
    requires Route(u).Some? && !Admitted(allowedUsers, username)
    ensures Step(allowedUsers, username, s, u, env) == Turn(s, [Say(DeniedText)], None)
  {
    DeniedSenderGetsOnlyDenial(allowedUsers, username, s, u, h => Handle(h, s, env));
  }

  /** An admitted sender's update reaches the routed handler unchanged. */
  lemma AdmittedSenderHandled(allowedUsers: string, username: string, s: Session, u: Update, env: Env)
    requires Admitted(allowedUsers, username)
    ensures u == Command("resumo") ==> Step(allowedUsers, username, s, u, env) == GenerateSummary(s, env.answer)
    ensures u.Text? ==> Step(allowedUsers, username, s, u, env) == HandleText(s, u.text, env.answer)
    ensures u.Document? && u.mimeType == PdfMimeType ==>
      Step(allowedUsers, username, s, u, env) == HandlePdf(s, u.fileName, env)
    ensures u == Command("start") ==> Step(allowedUsers, username, s, u, env) == Turn(s, [Say(StartText)], None)
    ensures u == Command("suporte") ==>
      Step(allowedUsers, username, s, u, env) == Turn(s, [Reply(SupportText, MarkdownV2)], None)
  {
  }

  /** Without an article no update, from anyone, calls the answer service. */
  lemma NoAnswerCallWithoutArticle(allowedUsers: string, username: string, s: Session, u: Update, env: Env)
    requires !HasArticle(s)
    ensures Step(allowedUsers, username, s, u, env).request == None
  {
  }

  /**
   * The answer service is only called for an admitted sender with an article,
   * and always on that article.
   */
  lemma AnswerCallNeedsAdmissionAndArticle(allowedUsers: string, username: string, s: Session, u: Update, env: Env)
    ensures var t := Step(allowedUsers, username, s, u, env);
      t.request.Some? ==>
        Admitted(allowedUsers, username) && HasArticle(s) && t.request.value.article == s.article.value
        && (u == Command("resumo") || u.Text?)
  {
  }

  /** Only an admitted, successful PDF upload changes the article, and it stores the JSON path. */
  lemma ArticleChangesOnlyOnUpload(allowedUsers: string, username: string, s: Session, u: Update, env: Env)
    ensures var t := Step(allowedUsers, username, s, u, env);
      t.session.article != s.article ==>
        && Admitted(allowedUsers, username)
        && u.Document? && u.mimeType == PdfMimeType
        && env.grobid == Processed && XmlPath(env.timestamp, u.fileName) in FilesAfterUpload(env, u.fileName)
        && t.session.article == Some(JsonPath(env.timestamp, u.fileName))
  {
  }

  /** Only an admitted `/resumo` with an article changes the summary. */
  lemma SummaryChangesOnlyOnResumo(allowedUsers: string, username: string, s: Session, u: Update, env: Env)
    ensures var t := Step(allowedUsers, username, s, u, env);
      t.session.summary != s.summary ==>
        Admitted(allowedUsers, username) && u == Command("resumo") && HasArticle(s)
  {
  }
}

=== FILE: markdown.dfy ===
/**
 * The escaper for Telegram's "MarkdownV2" reply format: every one of the
 * eighteen characters that the format reserves is preceded by a backslash;
 * everything else, the backslash included, is copied.
 */
module Markdown {
  import opened Options

  /** The characters the escaper protects, in the order the code lists them. */
  const SpecialChars: string := "_*[]()~`>#+-=|{}.!"

  predicate IsSpecial(c: char) {
    c in SpecialChars
  }

  /** The set really has eighteen members and leaves the backslash out. */
  lemma SpecialCharsShape()
    ensures |SpecialChars| == 18
    ensures !IsSpecial('\\')
    ensures forall i, j :: 0 <= i < j < |SpecialChars| ==> SpecialChars[i] != SpecialChars[j]
  {
  }

  /** Number of reserved characters in `s`. */
  function CountSpecial(s: string): nat
  {
    if |s| == 0 then 0
    else (if IsSpecial(s[0]) then 1 else 0) + CountSpecial(s[1..])
  }

  lemma {:induction false} CountSpecialConcat(a: string, b: string)
    ensures CountSpecial(a + b) == CountSpecial(a) + CountSpecial(b)
    decreases |a|
  {
    if |a| == 0 {
      assert a + b == b;
    } else {
      assert (a + b)[1..] == a[1..] + b;
      CountSpecialConcat(a[1..], b);
    }
  }

  /** The replacement the substitution makes for one character. */
  function EscapeChar(c: char): string
  {
    if IsSpecial(c) then ['\\', c] else [c]
  }

  /**
   * `escape_markdown_v2`: a backslash is inserted before every reserved
   * character. The output is longer by exactly the number of reserved
   * characters, never starts with a reserved character, and every reserved
   * character in it sits right after a backslash.
   */
  function Escape(s: string): (r: string)
    ensures |r| == |s| + CountSpecial(s)
    ensures |r| > 0 ==> !IsSpecial(r[0])
    ensures forall i: nat :: EscapedAt(r, i)
  {
    if |s| == 0 then []
    else
      var rest := Escape(s[1..]);
      var e := EscapeChar(s[0]);
      var r := e + rest;
      assert forall i: nat :: EscapedAt(r, i) by {
        forall i: nat ensures EscapedAt(r, i) {
          if |e| <= i < |r| {
            assert r[i] == rest[i - |e|];
            assert EscapedAt(rest, i - |e|);
            if i > |e| {
              assert r[i - 1] == rest[i - |e| - 1];
            }
          }
        }
      }
      r
  }

  /** A reserved character at `i` sits right after a backslash. */
  predicate EscapedAt(r: string, i: nat) {
    i < |r| && IsSpecial(r[i]) ==> i > 0 && r[i - 1] == '\\'
  }

  /** Escaping works character by character, so it distributes over concatenation. */
  lemma {:induction false} EscapeConcat(a: string, b: string)
    ensures Escape(a + b) == Escape(a) + Escape(b)
    decreases |a|
  {
    if |a| == 0 {
      assert a + b == b;
    } else {
      assert (a + b)[1..] == a[1..] + b;
      EscapeConcat(a[1..], b);
    }
  }

  /** Letters, digits, blanks and non-ASCII text are never escaped: the special characters are ASCII punctuation. */
  lemma PlainCharNotSpecial(c: char)
    requires c <= ' ' || c > '~' || '0' <= c <= '9' || 'A' <= c <= 'Z' || 'a' <= c <= 'z'
    ensures !IsSpecial(c)
  {
  }

  /** The count is zero exactly for text with no special character. */
  lemma {:induction false} CountSpecialZero(s: string)
    ensures CountSpecial(s) == 0 <==> forall i :: 0 <= i < |s| ==> !IsSpecial(s[i])
    decreases |s|
  {
    if |s| > 0 {
      CountSpecialZero(s[1..]);
      assert forall i :: 1 <= i < |s| ==> s[i] == s[1..][i - 1];
    }
  }

  /** Text without reserved characters, and only such text, is left unchanged. */
  lemma {:induction false} EscapeFixedPoint(s: string)
    ensures Escape(s) == s <==> CountSpecial(s) == 0
    decreases |s|
  {
    if |s| > 0 && CountSpecial(s) == 0 {
      EscapeFixedPoint(s[1..]);
    }
  }

  /** The inserted backslashes are not reserved, so the count is unchanged. */
  lemma {:induction false} CountSpecialEscape(s: string)
    ensures CountSpecial(Escape(s)) == CountSpecial(s)
    decreases |s|
  {
    if |s| > 0 {
      CountSpecialConcat(EscapeChar(s[0]), Escape(s[1..]));
      CountSpecialEscape(s[1..]);
    }
  }

  /** Escaping twice is not escaping once as soon as one reserved character is present. */
  lemma EscapeNotIdempotent(s: string)
    requires CountSpecial(s) > 0
    ensures Escape(Escape(s)) != Escape(s)
  {
    CountSpecialEscape(s);
  }

  /** Delete the character immediately before each reserved character. */
  function Unescape(t: string): string
  {
    if |t| == 0 then []
    else (if |t| >= 2 && IsSpecial(t[1]) then [] else [t[0]]) + Unescape(t[1..])
  }

  /** A reserved character at the front of the remainder keeps its own predecessor. */
  lemma UnescapeCons(c: char, t: string)
    requires |t| == 0 || !IsSpecial(t[0])
    ensures Unescape([c] + t) == [c] + Unescape(t)
  {
    assert ([c] + t)[1..] == t;
  }

  /** Deleting the character before each reserved character undoes the escaping. */
  lemma {:induction false} UnescapeEscape(s: string)
    ensures Unescape(Escape(s)) == s
    decreases |s|
  {
    if |s| > 0 {
      var rest := Escape(s[1..]);
      assert Unescape([s[0]] + rest) == s by {
        UnescapeEscape(s[1..]);
        UnescapeCons(s[0], rest);
        assert s == [s[0]] + s[1..];
      }
      if IsSpecial(s[0]) {
        var t := ['\\', s[0]] + rest;
        assert t[1..] == [s[0]] + rest;
        assert Unescape(t) == Unescape([s[0]] + rest);
      }
    }
  }

  /** Different texts escape to different texts. */
  lemma EscapeInjective(a: string, b: string)
    requires Escape(a) == Escape(b)
    ensures a == b
  {
    UnescapeEscape(a);
    UnescapeEscape(b);
  }

  /**
   * How Telegram reads a MarkdownV2 text that is meant to carry no markup: a
   * backslash followed by a character of code 1 to 126 stands for that
   * character; a reserved character anywhere else is markup, reported as None.
   */
  function TelegramPlainText(t: string): Option<string>
  {
    if |t| == 0 then Some([])
    else if t[0] == '\\' && |t| >= 2 && 1 <= t[1] as int <= 126 then
      match TelegramPlainText(t[2..])
      case Some(p) => Some([t[1]] + p)
      case None => None
    else if IsSpecial(t[0]) then None
    else
      match TelegramPlainText(t[1..])
      case Some(p) => Some([t[0]] + p)
      case None => None
  }

  /** For text with no backslash, Telegram shows exactly the original text, with no markup. */
  lemma {:induction false} TelegramRoundTrip(s: string)
    requires '\\' !in s
    ensures TelegramPlainText(Escape(s)) == Some(s)
    decreases |s|
  {
    if |s| > 0 {
      var rest := Escape(s[1..]);
      assert TelegramPlainText(rest) == Some(s[1..]) by {
        assert forall c :: c in s[1..] ==> c in s;
        TelegramRoundTrip(s[1..]);
      }
      assert Escape(s) == EscapeChar(s[0]) + rest by {
        EscapeCons(s[0], s[1..]);
        assert s == [s[0]] + s[1..];
      }
      assert s[0] != '\\' by {
        assert s[0] in s;
      }
      if IsSpecial(s[0]) {
        SpecialIsPrintable(s[0]);
        assert (['\\', s[0]] + rest)[2..] == rest;
      } else {
        assert ([s[0]] + rest)[1..] == rest;
      }
      assert [s[0]] + s[1..] == s;
    }
  }

  /** Every reserved character is printable ASCII, so a backslash can escape it. */
  lemma SpecialIsPrintable(c: char)
    requires IsSpecial(c)
    ensures 33 <= c as int <= 126
  {
  }

  /** Escaping works on the first character, then on the rest. */
  lemma EscapeCons(c: char, t: string)
    ensures Escape([c] + t) == EscapeChar(c) + Escape(t)
  {
    assert ([c] + t)[1..] == t;
  }

  /**
   * The backslash itself is not escaped, so a backslash in the text swallows
   * the character after it: an ordinary character loses its backslash ...
   */
  lemma BackslashSwallowsNext(c: char)
    requires !IsSpecial(c) && 1 <= c as int <= 126
    ensures TelegramPlainText(Escape(['\\', c])) == Some([c])
  {
    var t := ['\\', c];
    assert Escape(t) == t by {
      EscapeCons('\\', [c]);
      EscapeCons(c, []);
      assert [c] + [] == [c];
    }
    assert t[2..] == [];
  }

  /**
   * ... and a reserved character after a backslash is no longer escaped by
   * anything: Telegram either reads it as markup or refuses the message.
   */
  lemma BackslashExposesMarkup(c: char)
    requires IsSpecial(c)
    ensures TelegramPlainText(Escape(['\\', c])) == None
  {
    var t := ['\\', '\\', c];
    assert Escape(['\\', c]) == t by {
      EscapeCons('\\', [c]);
      EscapeCons(c, []);
      assert ['\\', c] + [] == ['\\', c];
    }
    assert t[2..] == [c];
    assert TelegramPlainText([c]) == None;
  }
}

=== FILE: options.dfy ===
/** The optional value used across the model. */
module Options {
  datatype Option<+T> = None | Some(value: T)
}

=== FILE: strings.dfy ===
/**
 * Python `str` operations the bot relies on, over `seq<char>`:
 * the substring test behind `x in s` and the scanning `str.replace`.
 */
module Strings {

  /** `sub` occurs in `s` starting at index `i`. */
  predicate OccursAt(s: string, sub: string, i: nat) {
    i + |sub| <= |s| && s[i..i + |sub|] == sub
  }

  /** Python's `sub in s` for two `str` values: scan `s` from the left. */
  function Contains(s: string, sub: string): bool
    decreases |s|
  {
    if |sub| > |s| then false
    else if s[..|sub|] == sub then true
    else Contains(s[1..], sub)
  }

  /** The scan agrees with the textbook definition of a substring. */
  lemma {:induction false} ContainsIsSubstring(s: string, sub: string)
    ensures Contains(s, sub) <==> exists i: nat :: OccursAt(s, sub, i)
    decreases |s|
  {
    if |sub| > |s| {
      assert forall i: nat :: !OccursAt(s, sub, i);
    } else if s[..|sub|] == sub {
      assert OccursAt(s, sub, 0);
    } else {
      ContainsIsSubstring(s[1..], sub);
      if Contains(s[1..], sub) {
        var i: nat :| OccursAt(s[1..], sub, i);
        assert s[1..][i..i + |sub|] == s[i + 1..i + 1 + |sub|];
        assert OccursAt(s, sub, i + 1);
      } else {
        assert !OccursAt(s, sub, 0) by { assert s[..|sub|] == s[0..|sub|]; }
        forall i: nat | i > 0
          ensures !OccursAt(s, sub, i)
        {
          OccursShift(s, sub, i - 1);
        }
      }
    }
  }

  /** Dropping the first character shifts every occurrence one place left. */
  lemma OccursShift(s: string, sub: string, i: nat)
    requires |s| > 0
    ensures OccursAt(s[1..], sub, i) <==> OccursAt(s, sub, i + 1)
  {
    if i + 1 + |sub| <= |s| {
      assert s[1..][i..i + |sub|] == s[i + 1..i + 1 + |sub|];
    }
  }

  /** The empty string is in every string; a non-empty one is in no empty string. */
  lemma EmptyContains(s: string, sub: string)
    ensures Contains(s, [])
    ensures |sub| > 0 ==> !Contains([], sub)
  {
  }

  /**
   * Python's `s.replace(pat, rep)`: find the leftmost occurrence of `pat`,
   * replace it, resume the search right after it (occurrences never overlap).
   */
  function ReplaceAll(s: string, pat: string, rep: string): string
    requires |pat| > 0
    decreases |s|
  {
    if |s| < |pat| then s
    else if s[..|pat|] == pat then rep + ReplaceAll(s[|pat|..], pat, rep)
    else [s[0]] + ReplaceAll(s[1..], pat, rep)
  }

  /** A string in which `pat` does not occur is left as it is. */
  lemma {:induction false} ReplaceAbsent(s: string, pat: string, rep: string)
    requires |pat| > 0
    requires forall i: nat :: !OccursAt(s, pat, i)
    ensures ReplaceAll(s, pat, rep) == s
    decreases |s|
  {
    if |s| < |pat| {
    } else {
      assert !OccursAt(s, pat, 0);
      assert s[..|pat|] != pat by { assert s[..|pat|] == s[0..|pat|]; }
      forall i: nat ensures !OccursAt(s[1..], pat, i) {
        OccursShift(s, pat, i);
      }
      ReplaceAbsent(s[1..], pat, rep);
    }
  }

  /** Where `pat` does not start, the first character is copied. */
  lemma ReplaceSkip(s: string, pat: string, rep: string)
    requires |pat| > 0 && |s| > 0
    requires !OccursAt(s, pat, 0)
    ensures ReplaceAll(s, pat, rep) == [s[0]] + ReplaceAll(s[1..], pat, rep)
  {
    assert |s| < |pat| || s[..|pat|] == s[0..|pat|];
  }

  /**
   * The leftmost occurrence of `pat` is the one replaced: everything before it
   * is copied and the replacement continues on the rest.
   */
  lemma {:induction false} ReplaceLeftmost(s: string, pat: string, rep: string, k: nat)
    requires |pat| > 0
    requires OccursAt(s, pat, k)
    requires forall i: nat :: i < k ==> !OccursAt(s, pat, i)
    ensures ReplaceAll(s, pat, rep) == s[..k] + rep + ReplaceAll(s[k + |pat|..], pat, rep)
    decreases k
  {
    if k == 0 {
      ReplaceAtFront(s, pat, rep);
    } else {
      assert ReplaceAll(s[1..], pat, rep)
        == s[1..][..k - 1] + rep + ReplaceAll(s[1..][k - 1 + |pat|..], pat, rep) by {
        ShiftOccurrences(s, pat, k);
        ReplaceLeftmost(s[1..], pat, rep, k - 1);
      }
      ReplaceLeftmostStep(s, pat, rep, k);
    }
  }

  /** An occurrence at the front is replaced first. */
  lemma ReplaceAtFront(s: string, pat: string, rep: string)
    requires |pat| > 0 && OccursAt(s, pat, 0)
    ensures ReplaceAll(s, pat, rep) == s[..0] + rep + ReplaceAll(s[|pat|..], pat, rep)
  {
    assert s[..|pat|] == s[0..|pat|];
    assert s[..0] + rep == rep;
  }

  /** One step of the induction: the copied head goes in front of the tail's result. */
  lemma ReplaceLeftmostStep(s: string, pat: string, rep: string, k: nat)
    requires |pat| > 0 && k > 0 && OccursAt(s, pat, k) && !OccursAt(s, pat, 0)
    requires ReplaceAll(s[1..], pat, rep)
      == s[1..][..k - 1] + rep + ReplaceAll(s[1..][k - 1 + |pat|..], pat, rep)
    ensures ReplaceAll(s, pat, rep) == s[..k] + rep + ReplaceAll(s[k + |pat|..], pat, rep)
  {
    var t := s[1..];
    var rest := ReplaceAll(s[k + |pat|..], pat, rep);
    calc {
      ReplaceAll(s, pat, rep);
      { ReplaceSkip(s, pat, rep); }
      [s[0]] + ReplaceAll(t, pat, rep);
      [s[0]] + (t[..k - 1] + rep + ReplaceAll(t[k - 1 + |pat|..], pat, rep));
      { assert t[k - 1 + |pat|..] == s[k + |pat|..]; }
      [s[0]] + (t[..k - 1] + rep + rest);
      { ConsSlice(s, k, rep, rest); }
      s[..k] + rep + rest;
    }
  }

  /** Putting the head back in front of a prefix of the tail. */
  lemma ConsSlice(s: string, k: nat, rep: string, x: string)
    requires 0 < k <= |s|
    ensures [s[0]] + (s[1..][..k - 1] + rep + x) == s[..k] + rep + x
  {
    assert [s[0]] + s[1..][..k - 1] == s[..k];
  }

  /** The first occurrence at `k` becomes the first occurrence at `k - 1` once the head is dropped. */
  lemma ShiftOccurrences(s: string, pat: string, k: nat)
    requires k > 0 && OccursAt(s, pat, k)
    requires forall i: nat :: i < k ==> !OccursAt(s, pat, i)
    ensures OccursAt(s[1..], pat, k - 1)
    ensures forall i: nat :: i < k - 1 ==> !OccursAt(s[1..], pat, i)
  {
    OccursShift(s, pat, k - 1);
    forall i: nat | i < k - 1 ensures !OccursAt(s[1..], pat, i) {
      OccursShift(s, pat, i);
    }
  }
}

=== FILE: variants.dfy ===
/**
 * The two versions side by side: they share the guard, the routing and the
 * state machine, and differ in what the answer goes through and in how the
 * summary is shown. Also the end-to-end scenarios of a conversation.
 */
module Variants {
  import opened Options
  import opened Bot
  import opened Markdown
  import opened Cleanup
  import opened Artifacts
  import opened Strings
  import GptBot
  import ClaudeBot

  /**
   * The GPT answer is the Claude-style raw answer put through the clean-up;
   * a failure is returned the same way by both, only the provider name differs.
   */
  lemma AnswersDifferOnlyByCleanup(answer: AnswerOutcome)
    ensures answer.Answered? ==>
      GptBot.GenerateResponse(answer).text == CleanAnswer(ClaudeBot.GenerateResponse(answer).text)
    ensures answer.AnswerFailed? ==>
      GptBot.GenerateResponse(answer).text == ClaudeBot.GenerateResponse(answer).text == answer.error
    ensures |GptBot.GenerateResponse(answer).replies| == |ClaudeBot.GenerateResponse(answer).replies|
    ensures GptBot.GenerateResponse(answer).text == ClaudeBot.GenerateResponse(answer).text
        <==> answer.AnswerFailed? || CleanAnswer(answer.text) == answer.text
  {
  }

  /**
   * Whenever the two versions store the same summary text (always after a
   * failed call, and after a successful one whose answer the clean-up leaves
   * as it is), they end in the same session, and their summary replies agree
   * exactly when escaping changes nothing, that is when the summary has no
   * reserved character.
   */
  lemma SummaryRepliesAgreeWithoutSpecials(s: Session, answer: AnswerOutcome)
    requires HasArticle(s)
    requires answer.Answered? ==> CleanAnswer(answer.text) == answer.text
    ensures var text := ClaudeBot.GenerateResponse(answer).text;
      var g := GptBot.GenerateSummary(s, answer);
      var c := ClaudeBot.GenerateSummary(s, answer);
      g.session == c.session
      && (g.replies[|g.replies| - 2].text == c.replies[|c.replies| - 2].text <==> CountSpecial(text) == 0)
  {
    var text := ClaudeBot.GenerateResponse(answer).text;
    assert GptBot.GenerateResponse(answer).text == text;
    var g := GptBot.GenerateSummary(s, answer);
    var c := ClaudeBot.GenerateSummary(s, answer);
    assert g.replies[|g.replies| - 2].text == SummaryHeader + Escape(text);
    assert c.replies[|c.replies| - 2].text == SummaryHeader + text;
    EscapeFixedPoint(text);
    if SummaryHeader + Escape(text) == SummaryHeader + text {
      assert Escape(text) == (SummaryHeader + Escape(text))[|SummaryHeader|..];
    }
  }

  /**
   * A document whose name has no lower-case `.pdf` keeps its name as the TEI
   * and JSON names, so the TEI path is the path the upload was saved under:
   * the model of the GPT version stores that path as the article (the PDF's
   * own path, not a JSON file) and reports success, and the model of the
   * Claude version stores the uploaded bytes themselves as the article,
   * whatever GROBID wrote. The program would hand the PDF to `tei_to_json`,
   * or read it as text; what follows from that is left out of the model.
   */
  lemma UploadWithoutPdfExtensionFindsItself(s: Session, fileName: string, env: Env)
    requires env.grobid == Processed
    requires forall i: nat :: !OccursAt(fileName, PdfExt, i)
    ensures GptBot.HandlePdf(s, fileName, env)
      == Turn(s.(article := Some(PdfPath(env.timestamp, fileName))), [Say(GrobidProcessingText), Say(ProcessedText)], None)
    ensures ClaudeBot.HandlePdf(s, fileName, env).session == s.(article := Some(env.upload))
  {
    NamesWithoutPdf(fileName);
    assert XmlPath(env.timestamp, fileName) == PdfPath(env.timestamp, fileName);
    assert JsonPath(env.timestamp, fileName) == PdfPath(env.timestamp, fileName);
  }

  /**
   * When the TEI name differs from the upload's own path and GROBID's output
   * is there, the GPT version stores the JSON path and the Claude version
   * stores exactly the text GROBID wrote; when it is not there, both send
   * the missing-XML reply and keep their state.
   */
  lemma UploadReadsGrobidOutput(s: Session, fileName: string, env: Env)
    requires env.grobid == Processed
    requires XmlPath(env.timestamp, fileName) != PdfPath(env.timestamp, fileName)
    ensures XmlPath(env.timestamp, fileName) in env.disk ==>
      GptBot.HandlePdf(s, fileName, env).session == s.(article := Some(JsonPath(env.timestamp, fileName)))
      && ClaudeBot.HandlePdf(s, fileName, env).session == s.(article := Some(env.disk[XmlPath(env.timestamp, fileName)]))
    ensures XmlPath(env.timestamp, fileName) !in env.disk ==>
      GptBot.HandlePdf(s, fileName, env) == Turn(s, [Say(GrobidProcessingText), Say(XmlMissingText)], None)
      && ClaudeBot.HandlePdf(s, fileName, env) == Turn(s, [Say(GrobidProcessingText), Say(XmlMissingText)], None)
  {
  }

  /** Both versions refuse the same senders in the same way. */
  lemma SameGuard(allowedUsers: string, username: string, s: Session, u: Update, env: Env)
    requires !Admitted(allowedUsers, username)
    ensures GptBot.Step(allowedUsers, username, s, u, env) == ClaudeBot.Step(allowedUsers, username, s, u, env)
  {
  }

  // ---------------------------------------------------------------------------
  // Scenarios
  // ---------------------------------------------------------------------------

  /** `/start` on a new conversation: the welcome text, and still no article. */
  lemma StartScenario(allowedUsers: string, username: string, env: Env)
    requires Admitted(allowedUsers, username)
    ensures GptBot.Step(allowedUsers, username, NewSession, Command("start"), env)
      == Turn(NewSession, [Say(StartText)], None)
  {
  }

  /**
   * Uploading `<base>.pdf`, with no other `.pdf` in the name, when GROBID writes
   * `<base>.grobid.tei.xml`: the GPT version stores the JSON path next to it
   * and confirms.
   */
  lemma UploadScenario(allowedUsers: string, username: string, s: Session, base: string, env: Env)
    requires Admitted(allowedUsers, username)
    requires (forall i: nat :: !OccursAt(base, PdfExt, i)) && !IsAbsolute(base + PdfExt)
    requires env.grobid == Processed
    requires WorkDir(env.timestamp) + (base + TeiExt) in env.disk
    ensures var t := GptBot.Step(allowedUsers, username, s, Document(PdfMimeType, base + PdfExt), env);
      t.session == s.(article := Some(WorkDir(env.timestamp) + (base + JsonExt)))
      && t.replies == [Say(GrobidProcessingText), Say(ProcessedText)]
      && HasArticle(t.session)
  {
    ExtensionReplaced(base);
    ArtifactsShareDirectory(env.timestamp, base + PdfExt);
    GptBot.AdmittedSenderHandled(allowedUsers, username, s, Document(PdfMimeType, base + PdfExt), env);
  }

  /** One line of ASCII letters, digits and inner blanks. */
  predicate PlainLine(text: string) {
    |text| > 0 && text[0] != ' ' && text[|text| - 1] != ' '
    && forall i :: 0 <= i < |text| ==>
         text[i] == ' ' || '0' <= text[i] <= '9' || 'A' <= text[i] <= 'Z' || 'a' <= text[i] <= 'z'
  }

  /** A plain line passes the clean-up untouched ... */
  lemma PlainLineClean(text: string)
    requires PlainLine(text)
    ensures CleanAnswer(text) == text
  {
    forall i: nat ensures !BlankGapAt(text, i) {
      if i < |text| { assert text[i] != '\n'; }
    }
    assert Open !in text by {
      forall i | 0 <= i < |text| ensures text[i] != Open { }
    }
    CleanAnswerFixedPoint(text);
  }

  /** ... and the escaper too. */
  lemma PlainLineUnescaped(text: string)
    requires PlainLine(text)
    ensures Escape(text) == text
  {
    forall i | 0 <= i < |text| ensures !IsSpecial(text[i]) {
      PlainCharNotSpecial(text[i]);
    }
    CountSpecialZero(text);
    EscapeFixedPoint(text);
  }

  /**
   * `/resumo` with an article and a plain answer: the answer is stored as the
   * summary and shown after the header as it came, then the invitation to
   * ask follows.
   */
  lemma SummaryScenario(allowedUsers: string, username: string, s: Session, env: Env)
    requires Admitted(allowedUsers, username) && HasArticle(s)
    requires env.answer.Answered? && PlainLine(env.answer.text)
    ensures var t := GptBot.Step(allowedUsers, username, s, Command("resumo"), env);
      t.session.summary == Some(env.answer.text)
      && t.replies == [Say(GptBot.AnswerNotice), Reply(SummaryHeader + env.answer.text, MarkdownV2), Say(FollowUpText)]
  {
    var text := env.answer.text;
    var t := GptBot.GenerateSummary(s, env.answer);
    assert GptBot.Step(allowedUsers, username, s, Command("resumo"), env) == t by {
      GptBot.AdmittedSenderHandled(allowedUsers, username, s, Command("resumo"), env);
    }
    assert GptBot.GenerateResponse(env.answer) == Response(text, [Say(GptBot.AnswerNotice)]) by {
      PlainLineClean(text);
    }
    assert Escape(text) == text by {
      PlainLineUnescaped(text);
    }
    assert t.session.summary == Some(text);
    assert t.replies == [Say(GptBot.AnswerNotice)] + [Reply(SummaryHeader + text, MarkdownV2), Say(FollowUpText)];
  }

  /** GROBID unreachable: the diagnostic is sent and the article stays what it was. */
  lemma GrobidDownScenario(allowedUsers: string, username: string, s: Session, name: string, env: Env)
    requires Admitted(allowedUsers, username)
    requires env.grobid == GrobidFailed("timeout")
    ensures var t := GptBot.Step(allowedUsers, username, s, Document(PdfMimeType, name), env);
      t.session == s
      && t.replies == [Say(GrobidProcessingText), Say(GptBot.GrobidFailurePrefix + "timeout")]
  {
    GptBot.AdmittedSenderHandled(allowedUsers, username, s, Document(PdfMimeType, name), env);
  }

  /**
   * `/resumo` from a sender whose name holds a character the list lacks: the
   * denial only, and the answer service is never asked.
   */
  lemma UnauthorizedSummaryScenario(allowedUsers: string, username: string, c: char, s: Session, env: Env)
    requires c in username && c !in allowedUsers
    ensures GptBot.Step(allowedUsers, username, s, Command("resumo"), env) == Turn(s, [Say(DeniedText)], None)
  {
    ForeignCharacterRefused(allowedUsers, username, c);
    GptBot.RefusedSenderOnlyDenied(allowedUsers, username, s, Command("resumo"), env);
  }
}
